=== FILE: README.md ===
# TaskMaster Kanban board: a Dafny model

This project models the core of the TaskMaster Kanban application. Users keep tasks in four fixed columns (todo, inProgress, blocked, done). Each task has a manual position `order` inside its column, and workspaces are shared between members.

The centre of the model is the task routes of the Express back end (`backend/routes/tasks.js`). Each handler is a pure transition: it takes the task collection (a map from id to task document) and the request, and returns the new collection together with the reply. A reply is `Ok`, `Created`, `NotFound`, `BadRequest`, or `ServerError`, which stands for the catch block's 500.

The routes scope every query by the caller's user id (`createdBy`), not by workspace. A partition is therefore one user's tasks in one column. The invariant the ordering is meant to keep is that every partition's orders are exactly `0 .. n-1`. The project proves the following about it:

- create, update and delete keep the invariant;
- move keeps it when three conditions hold: the request names the task's stored column as its source, the destination is a known column, and `newIndex` is a valid integer insertion position. This holds for a save that writes the order. The handler as written relies on Mongoose's save, which skips unchanged paths, and so it needs a fourth condition: the request does not ask for the task's own column and order (see Findings);
- counter-lemmas show what goes wrong when the unchecked conditions fail.

Around this core the project models five more pieces:

- the Mongoose schemas (enumerations, defaults, `trim` setters, required paths);
- the workspace routes (owner-only changes, unique members, filter-remove);
- the board client's column grouping and its local update after a drag. A refinement lemma shows that the local remove/insert gives the same lists as the server's two-pass reindex;
- the client's workspace view mapping;
- the small validators and display helpers of the task dialog, the registration form and the task card.

Modules follow the program: `Wrappers`, `Text`, `Ids`/`TaskModel`/`WorkspaceModel`, `Ordering` (the partition algebra), `TaskRoutes`, `Grouping`, `Board`, `WorkspaceRoutes`, `WorkspaceView`, `TaskForm`, `RegisterForm` and `CardDisplay`.

backend/models/Task.js:47-51 declares a required `workspace` on every task, but every query in backend/routes/tasks.js filters by `createdBy` and `columnId`, and no route sets or reads a task's `workspace`. The model follows the routes.

## Model

| member | source | states |
|---|---|---|
| Text.Trim | backend/models/Task.js:4-8 | The `trim` setter's result is the slice of the input between its leading and trailing white space: empty exactly when the input is all white space, otherwise starting and ending with a non-space character |
| Text.TrimIdempotent | backend/models/Task.js:4-8 | Trimming an already trimmed string changes nothing, so re-saving a stored title is stable |
| Text.TrimmedIff | backend/models/Task.js:4-12 | A string neither starting nor ending with white space is exactly one the `trim` setter leaves unchanged |
| Text.JoinSplit | src/components/kanban/TaskCard.tsx:131 | `split(' ')` loses nothing: joining the segments with the separator gives the name back, so the initials are read from every segment of the name |
| TaskModel.ParsePriority | backend/models/Task.js:13-17 | The priority enum accepts exactly "low", "medium", "high", and an accepted string is the name of the priority it yields |
| TaskModel.ParseColumn | backend/models/Task.js:21-26 | The column enum accepts exactly the four column names, each yielding the column it names |
| TaskModel.ColumnNameInjective | backend/models/Task.js:21-26 | Two columns have the same stored name only if they are the same column, so the queries' string comparison on `columnId` compares columns |
| TaskModel.Build | backend/models/Task.js:3-54 | Construction plus validation succeeds exactly when the title is present and not blank, a given priority and column are in their enums, and a workspace is set. The saved task has a trimmed title and a trimmed description (none when none is given), medium/todo/0/0 for an unset priority, column, order and comment count, and copies the due date, assignee, owner and workspace |
| WorkspaceModel.ParseRole | backend/models/Workspace.js:19-22 | The role enum accepts exactly "owner", "admin", "member", each yielding its role |
| WorkspaceModel.CastMembers | backend/models/Workspace.js:14-24 | Casting the member list succeeds exactly when every given role is in the enum; entries keep their order and users, and an unset role becomes "member" |
| WorkspaceModel.Build | backend/models/Workspace.js:3-29 | A workspace saves exactly when its name is present and not blank and every member role is valid; the saved name is trimmed and owner and members are kept |
| Ordering.Lower | backend/routes/tasks.js:119-126 | The `$inc: -1` pass lowers by one every order above the given one and keeps all others and all keys |
| Ordering.Raise | backend/routes/tasks.js:166-173 | The `$inc: 1` pass raises by one every order at or above the given one and keeps all others and all keys |
| Ordering.Close | backend/routes/tasks.js:109-126 | Removing a task and lowering the orders above it leaves a partition with exactly the other tasks |
| Ordering.Open | backend/routes/tasks.js:165-177 | Raising the orders at or above `p` and placing a task at `p` gives a partition with exactly one more task |
| Ordering.CloseDense | backend/routes/tasks.js:118-126 | Closing the gap a task leaves turns a `0..n-1` partition into a `0..n-2` partition |
| Ordering.OpenDense | backend/routes/tasks.js:165-178 | Opening a slot at a position between 0 and the partition size keeps a partition gap-free and duplicate-free |
| Ordering.OpenInRangeAndDistinct | backend/routes/tasks.js:165-178 | After opening a slot every order lies between 0 and the old size, and no two tasks share an order |
| Ordering.OpenOccupies | backend/routes/tasks.js:165-178 | After opening a slot every order from 0 to the old size is held by some task: lower orders by the same tasks, `p` by the moved task, higher ones by the tasks that were one below |
| Ordering.DenseMax | backend/routes/tasks.js:26-32 | In a non-empty gap-free partition the highest order is the size minus one and some task holds it |
| Ordering.AppendIsOpenAtEnd | backend/routes/tasks.js:26-32 | Placing a task after the highest order is the same as opening a slot at the end |
| Ordering.MaxOf | backend/routes/tasks.js:27-32 | The highest order of a non-empty partition is one of its orders and bounds all of them |
| Ordering.PassesThenSave | backend/routes/tasks.js:150-178 | For every partition, the lower pass, the raise pass and the final save combine into a close in the source partition, an open in the destination partition, or both |
| Ordering.MoveAcrossPasses | backend/routes/tasks.js:150-178 | For a move within one column, lowering, raising and saving the task at `p` is closing its gap and then opening a slot at `p` |
| Ordering.RaiseThenSave | backend/routes/tasks.js:165-178 | Raising a partition and saving a task from elsewhere at `p` is opening a slot at `p` |
| Ordering.RemoveWithoutLowerLeavesGap | backend/routes/tasks.js:150-163 | When the request's `sourceColumn` does not match the stored column, the decrement pass is skipped; taking a task that is not last out of its partition this way leaves a gap |
| Ordering.LowerWithoutRemoveDuplicates | backend/routes/tasks.js:153-163 | The decrement pass on its own, while the moved task still sits in its column, produces a duplicate order, so density only holds once the final save has moved the task |
| Ordering.OpenOutOfRange | backend/routes/tasks.js:165-177 | An unchecked `newIndex` below 0 or above the partition size can never give a gap-free partition |
| Ordering.RemoveAt | src/components/kanban/KanbanBoard.tsx:119-122 | Filtering out index `i` keeps the elements before `i` and shifts the ones after it down by one |
| Ordering.InsertAt | src/components/kanban/KanbanBoard.tsx:124-128 | Splicing at `p` puts the element at `p`, keeps the prefix and shifts the suffix up by one |
| Ordering.RepresentsDense | backend/routes/tasks.js:11-12 | A column list whose position j holds the task with order j describes a gap-free partition |
| Ordering.RemoveRefinesClose | src/components/kanban/KanbanBoard.tsx:119-122 | Removing the card at a position from a list that mirrors a partition gives the list that mirrors the server's closed partition |
| Ordering.InsertRefinesOpen | src/components/kanban/KanbanBoard.tsx:124-128 | Inserting a card at `p` into a list that mirrors a partition gives the list that mirrors the server's partition opened at `p` |
| Ordering.SortedCoverRepresents | backend/routes/tasks.js:11-12 | A list naming every key of a gap-free partition, in strictly increasing order, puts the key of order j at position j |
| Ordering.RepresentsUnique | backend/routes/tasks.js:11-12 | A gap-free partition is listed in exactly one way, so two lists that both mirror it are equal |
| TaskRoutes.ShiftDown | backend/routes/tasks.js:119-126 | The `updateMany` decrement changes nothing but `order` and keeps every document |
| TaskRoutes.ShiftUp | backend/routes/tasks.js:166-173 | The `updateMany` increment changes nothing but `order` and keeps every document |
| TaskRoutes.ShiftDownOrders | backend/routes/tasks.js:155-162 | The decrement pass is `Lower` on the named user-and-column partition and leaves every other partition as it was |
| TaskRoutes.ShiftUpOrders | backend/routes/tasks.js:166-173 | The increment pass is `Raise` on the named partition and leaves every other partition as it was |
| TaskRoutes.ShiftDownNamed | backend/routes/tasks.js:155-162 | On the partition the filter names, the decrement pass is `Lower` at the moved task's old order |
| TaskRoutes.ShiftDownOther | backend/routes/tasks.js:155-162 | The decrement pass leaves the partitions of other users and other columns as they were |
| TaskRoutes.ShiftUpNamed | backend/routes/tasks.js:166-173 | On the partition the filter names, the increment pass is `Raise` at `newIndex` |
| TaskRoutes.ShiftUpOther | backend/routes/tasks.js:166-173 | The increment pass leaves the partitions of other users and other columns as they were |
| TaskRoutes.RemoveOrders | backend/routes/tasks.js:109-112 | Deleting a document removes it from its own partition and changes no other entry |
| TaskRoutes.SaveOrders | backend/routes/tasks.js:175-178 | Saving a document takes it out of its old partition and places it, with its order, into the partition it now names |
| TaskRoutes.InsertSorted | backend/routes/tasks.js:11-12 | Inserting after every task with an order not greater than its own keeps the list sorted by order, makes it one longer, adds exactly the new task while dropping none, and keeps ids distinct when the new id is fresh |
| TaskRoutes.InsertAtPos | backend/routes/tasks.js:11-12 | Placing a task between the tasks not above it and the tasks above it keeps a sorted list sorted and adds only that task |
| TaskRoutes.InsertKeepsDistinct | backend/routes/tasks.js:11-12 | Placing a task whose id is not yet listed anywhere in a listing without repeated ids gives a listing without repeated ids |
| TaskRoutes.ListTasks | backend/routes/tasks.js:9-19 | On a store that keeps each document under its own id, the list route returns every task of the caller and only the caller's, no task twice, sorted by ascending order; its length is the number of the caller's tasks |
| TaskRoutes.ListStep | backend/routes/tasks.js:9-19 | Adding one more of the caller's tasks to the sorted partial listing keeps it sorted, keeps it to the caller's tasks, keeps ids distinct, and keeps exactly one entry per task taken so far |
| TaskRoutes.NextOrder | backend/routes/tasks.js:26-32 | A new task's order is 0 when the caller's column is empty, and otherwise one more than the highest order present there |
| TaskRoutes.LookupAssignee | backend/routes/tasks.js:34-43 | An assignee is cached exactly when an id is given and that user exists, with the user's id and name |
| TaskRoutes.CreateWith | backend/routes/tasks.js:22-62 | Create stores the built task under the new id exactly when construction validates and the id is fresh; otherwise it answers 500 and stores nothing |
| TaskRoutes.CreateTaskAsWritten | backend/routes/tasks.js:45-56 | As written, `new Task` receives no workspace, so every create answers 500 and leaves the collection unchanged |
| TaskRoutes.CreateTask | backend/routes/tasks.js:22-62 | With the workspace supplied, create succeeds exactly for a fresh id, a non-blank title, and a valid priority and column. The new task has the caller, the trimmed title, the next order of its column, the looked-up assignee and no comments |
| TaskRoutes.CreatePreservesInv | backend/routes/tasks.js:26-56 | A create keeps every partition gap-free, and the new order is the size of its partition (appended at the end) |
| TaskRoutes.CreatedIsValid | backend/routes/tasks.js:45-56 | The document a successful create stores passed validation |
| TaskRoutes.AppendKeepsDense | backend/routes/tasks.js:26-32 | Storing a new task with order equal to its partition's size keeps every partition gap-free |
| TaskRoutes.CreateOrderIsSize | backend/routes/tasks.js:26-32 | In a gap-free partition "highest order + 1, or 0" equals the number of tasks in the partition |
| TaskRoutes.UpdateTask | backend/routes/tasks.js:65-103 | Update answers "Task not found" exactly when the caller has no such task, changing nothing; a success stores the updated document, a validation failure stores nothing |
| TaskRoutes.ApplyUpdate | backend/routes/tasks.js:79-97 | An update never changes id, owner, workspace, column, order or comment count. A truthy title replaces the old one trimmed. A present description or due date replaces it, an explicit null clears it. A truthy priority must be in the enum. A found assignee replaces the old one, a null clears it |
| TaskRoutes.UpdatedTitle | backend/routes/tasks.js:80 | Only a truthy title replaces the stored one, and it is stored trimmed |
| TaskRoutes.Patch | backend/routes/tasks.js:81-83 | An absent field keeps the stored value, `null` clears it, a value replaces it |
| TaskRoutes.TrimmedField | backend/models/Task.js:9-12 | The description setter trims a given value and passes `null` and absence through |
| TaskRoutes.UpdatedAssignee | backend/routes/tasks.js:85-95 | A found user replaces the assignee, an explicit null clears it, and an unknown or missing id keeps it |
| TaskRoutes.ApplyUpdateSucceeds | backend/routes/tasks.js:79-97 | On a valid task an update succeeds exactly when a sent title is not blank and a sent priority is in the enum |
| TaskRoutes.ApplyUpdateIdempotent | backend/routes/tasks.js:79-97 | Sending the same update twice has the same effect as sending it once |
| TaskRoutes.EmptyUpdateIsIdentity | backend/routes/tasks.js:79-97 | An empty request body leaves a valid task unchanged |
| TaskRoutes.UpdatePreservesInv | backend/routes/tasks.js:65-103 | An update leaves every partition's orders exactly as they were and keeps the invariant |
| TaskRoutes.SaveKeepsWellFormed | backend/routes/tasks.js:97 | Saving a valid document under its own id keeps every stored document valid |
| TaskRoutes.SaveInPlace | backend/routes/tasks.js:97 | Saving a document without changing owner, column or order changes no partition |
| TaskRoutes.DeleteTask | backend/routes/tasks.js:106-133 | Delete answers "Task not found" and changes nothing unless the caller owns the task. Otherwise it removes the task and lowers by one exactly the caller's same-column tasks above it, leaving every other document as it was |
| TaskRoutes.DeleteOrders | backend/routes/tasks.js:118-126 | A delete closes the gap in the deleted task's partition and leaves every other partition unchanged |
| TaskRoutes.DeletePreservesInv | backend/routes/tasks.js:106-133 | A delete keeps every partition gap-free |
| TaskRoutes.MoveTask | backend/routes/tasks.js:136-185 | The corrected move, whose save writes both the column and the order. Move answers "Task not found" unless the caller owns the task. An unknown destination fails the save after both passes have already run. A success saves the task with the destination column and `newIndex` and nothing else changed |
| TaskRoutes.MovePassesOrders | backend/routes/tasks.js:150-173 | The decrement pass touches the stored column only when the request names it as the source; the increment pass touches the named destination |
| TaskRoutes.MoveOrders | backend/routes/tasks.js:150-178 | After a move, the source partition has its gap closed, or just loses the task when the source column is misnamed. The destination has a slot opened at `newIndex` holding the task, and other partitions are unchanged |
| TaskRoutes.MovePreservesInv | backend/routes/tasks.js:136-185 | The corrected move succeeds and keeps every partition gap-free when the source column matches, the destination is known and `newIndex` lies in `0..size` of the destination without the task |
| TaskRoutes.MoveSucceeds | backend/routes/tasks.js:175-180 | A move of a valid task to a known column succeeds, with the destination column and `newIndex` as its new column and order |
| TaskRoutes.PassesKeepWellFormed | backend/routes/tasks.js:153-173 | The two passes keep every document valid |
| TaskRoutes.MoveKeepsDense | backend/routes/tasks.js:150-178 | Each partition is gap-free after a move made under the three conditions |
| TaskRoutes.MoveTaskAsWritten | backend/routes/tasks.js:136-185 | The move as written, with a save that writes only the paths whose assignment changed the copy read before the passes. It answers as `MoveTask` does. On a request for the task's own column and order it stores what the passes left |
| TaskRoutes.PassesKeepTask | backend/routes/tasks.js:153-173 | The passes change only orders, and they leave the moving task's order alone unless the raise pass runs on its stored column |
| TaskRoutes.MoveAsWrittenAgrees | backend/routes/tasks.js:175-178 | Except on a request for the task's own column and order, the dirty-tracking save stores exactly what the corrected save stores |
| TaskRoutes.MoveAsWrittenPreservesInv | backend/routes/tasks.js:136-185 | The handler as written keeps every partition gap-free under the three conditions and a request that is not for the task's own place |
| TaskRoutes.NoOpMoveBreaksDensity | backend/routes/tasks.js:166-178 | On any consistent store, the handler as written given a request for the task's own column and order leaves that column with a gap or a duplicate order |
| TaskRoutes.NoOpMoveKeepsOrders | backend/routes/tasks.js:150-178 | The corrected move given the same request succeeds and leaves every partition exactly as it was |
| Ordering.PassesWithoutSaveBreakDensity | backend/routes/tasks.js:153-173 | Lowering and raising a gap-free partition at a task's own order, without saving the task back, never gives a gap-free partition |
| Ordering.CloseThenReopen | backend/routes/tasks.js:153-178 | Closing a task's gap and opening a slot at its old order restores the partition |
| Grouping.Initial | src/components/kanban/KanbanBoard.tsx:67-72 | The grouping starts from exactly the four column keys with empty lists |
| Grouping.GroupIsSelect | src/components/kanban/KanbanBoard.tsx:75-89 | A key has a group exactly when it is a column key or some task carries it, and each group is the tasks with that key in input order |
| Grouping.AlwaysFourColumns | src/components/kanban/KanbanBoard.tsx:67-89 | The four column keys are present even for an empty response |
| Grouping.ItemInItsGroup | src/components/kanban/KanbanBoard.tsx:75-88 | Every task lands in the group of its own key |
| Grouping.GroupTotal | src/services/taskService.ts:36-42 | The group sizes add up to the number of tasks: none is lost or repeated |
| Board.ToCard | src/components/kanban/KanbanBoard.tsx:79-87 | A card keeps the task's id, title, description, priority, assignee and comment count |
| Board.GroupResponseColumns | src/components/kanban/KanbanBoard.tsx:66-89 | Grouping the list response gives exactly the four column keys, each listing its tasks in response order |
| Board.ServiceKey | src/services/taskService.ts:37 | A missing or empty `columnId` files the task under todo; any other value is its own key |
| Board.ServiceGroupFacts | src/services/taskService.ts:28-42 | The service grouping always has the four keys. An unrecognised column id gets its own group. A task without a column lands in todo. Each group keeps input order, and the sizes sum to the input length |
| Board.SliceIndex | src/components/kanban/KanbanBoard.tsx:124-128 | `slice` clamps its index into the list and leaves an in-range index as it is |
| Board.SpliceIn | src/components/kanban/KanbanBoard.tsx:124-128 | The destination splice is an insertion at the clamped index |
| Board.HandleDragEnd | src/components/kanban/KanbanBoard.tsx:97-136 | A drop outside any column or onto its own place sends nothing and changes nothing. Otherwise the move request carries the card id, the source column, the destination column and the drop index. A failed request or unreadable card re-fetches with the lists unchanged. No column appears or disappears |
| Board.DragUpdatesLists | src/components/kanban/KanbanBoard.tsx:118-130 | After an accepted drag, the source list loses the card at `source.index` and the card is spliced into the destination list (after the removal when both are the same list). Every other column is untouched |
| Board.DragKeepsCount | src/components/kanban/KanbanBoard.tsx:119-130 | A drag keeps the total number of cards on the board |
| Board.DropLandsAtIndex | src/components/kanban/KanbanBoard.tsx:124-128 | The dragged card ends at `destination.index` of the destination list |
| Board.ServerAcceptsDrag | src/components/kanban/KanbanBoard.tsx:107-116 | A drag from a list that mirrors its partition, dropped at a position of the destination list, sends a move the server accepts while keeping its invariant |
| Board.ServerOrdersAfterDrag | backend/routes/tasks.js:150-178 | After such a move the server's source partition has its gap closed, and its destination has a slot opened at the drop index |
| Board.ClientSideOfDrag | src/components/kanban/KanbanBoard.tsx:119-128 | After the local update the source list mirrors the closed partition and the destination list mirrors the opened one |
| Board.DragSends | src/components/kanban/KanbanBoard.tsx:97-116 | A drag of a card to another place in an existing column sends the move of that card with the source column, the destination column and the drop index, and re-fetches exactly when the request fails |
| Board.DragMirrorsSameColumn | src/components/kanban/KanbanBoard.tsx:118-130 | For a reorder inside one column, the column's locally updated list mirrors the server's partition after the move |
| Board.DragMirrorsOtherColumn | src/components/kanban/KanbanBoard.tsx:118-130 | For a move to another column, both locally updated lists mirror the server's two partitions after the move |
| Board.DragAvoidsNoOpMove | src/components/kanban/KanbanBoard.tsx:100-104 | A drag from lists that mirror the server never asks for the card's own column and order, so the handler as written and the corrected move agree on every request the board sends |
| Board.DragRefinesMove | src/components/kanban/KanbanBoard.tsx:97-136 | When the board's lists mirror the server's partitions, a drag sends a move the server accepts. The server's invariant holds after it, and the two local lists mirror the server's new partitions, with no request beyond the move itself |
| Board.ColumnTasksMembers | src/components/kanban/KanbanBoard.tsx:74-89 | A column of the grouped response holds exactly the listed tasks filed under it |
| Board.ColumnTasksSorted | src/components/kanban/KanbanBoard.tsx:74-89 | Grouping keeps response order, so a column of a sorted response without repeats is sorted and without repeats |
| Board.ColumnCardIds | src/components/kanban/KanbanBoard.tsx:79-87 | The cards of a column carry the ids of the column's tasks, position by position |
| Board.SortedPartitionRepresents | backend/routes/tasks.js:9-19 | A list sorted by order holding exactly the tasks of one partition of a consistent store, each once, puts the task of order j at position j |
| Board.RefetchRepresents | src/components/kanban/KanbanBoard.tsx:62-95 | Grouping the list route's answer on a store that keeps its invariant gives every column, and each column lists its partition with the task of order j at position j |
| Board.DragMatchesRefetch | src/components/kanban/KanbanBoard.tsx:97-136 | After an accepted drag from lists that mirror the server, the two touched columns hold, card for card, the ids a re-fetch of the server's new state would show |
| Board.RefetchAfterDrag | src/components/kanban/KanbanBoard.tsx:62-136 | Whenever the board mirrors the server, re-fetching after the drag gives a listing of the server's new state, and the two touched columns already equal that listing's columns card for card |
| WorkspaceRoutes.ListWorkspaces | backend/routes/workspaces.js:10-14 | The listing holds exactly the workspaces the caller owns or is a member of |
| WorkspaceRoutes.CreateWorkspace | backend/routes/workspaces.js:26-47 | A workspace is created exactly for a non-blank name and a fresh id, owned by the caller and with the caller as its only member, role owner |
| WorkspaceRoutes.UpdateWorkspace | backend/routes/workspaces.js:50-73 | A non-owner gets "Workspace not found" with no change. The owner renames the workspace to the trimmed name when it is present and not blank, and nothing else changes |
| WorkspaceRoutes.DeleteWorkspace | backend/routes/workspaces.js:76-93 | Only the owner deletes; anyone else gets "Workspace not found" with no change |
| WorkspaceRoutes.AddMember | backend/routes/workspaces.js:96-130 | The checks run in this order: ownership ("Workspace not found"), then a known e-mail ("User not found"), then not yet a member ("User is already a member"). A success appends exactly one entry at the end with the given role or "member" and keeps the rest |
| WorkspaceRoutes.WithoutUser | backend/routes/workspaces.js:144-146 | The filter keeps exactly the entries of other users |
| WorkspaceRoutes.RemoveMember | backend/routes/workspaces.js:133-158 | Only the owner removes. Every entry of the user is dropped and the rest are kept in order, with no guard for the owner's own entry |
| WorkspaceRoutes.WithoutUserAppend | backend/routes/workspaces.js:144-146 | The filter distributes over concatenation, so kept entries keep their relative order |
| WorkspaceRoutes.WithoutAbsentUser | backend/routes/workspaces.js:144-146 | Removing a user who is not a member changes nothing |
| WorkspaceRoutes.WithoutUserUnique | backend/routes/workspaces.js:144-146 | Removing keeps member users distinct |
| WorkspaceRoutes.AddThenRemove | backend/routes/workspaces.js:115-146 | Removing a member just added restores the workspace exactly as it was |
| WorkspaceRoutes.RoutesPreserveInv | backend/routes/workspaces.js:26-158 | Every workspace route keeps each workspace stored under its id, valid, and with each user listed at most once |
| WorkspaceRoutes.AddKeepsInv | backend/routes/workspaces.js:114-120 | Adding a member keeps every workspace valid, under its id, and with distinct member users |
| WorkspaceRoutes.RemoveKeepsInv | backend/routes/workspaces.js:144-148 | Removing a member keeps every workspace valid, under its id, and with distinct member users |
| WorkspaceRoutes.CreatorSeesWorkspace | backend/routes/workspaces.js:10-34 | The creator finds a new workspace in their listing |
| WorkspaceRoutes.MembershipDecidesVisibility | backend/routes/workspaces.js:10-146 | An added member sees the workspace. After a removal the removed user sees it exactly when they are its owner |
| WorkspaceRoutes.OnlyOwnerMutates | backend/routes/workspaces.js:50-158 | For a non-owner every mutating route answers "Workspace not found" and stores nothing |
| WorkspaceView.ToMembers | src/services/workspaceService.ts:31-38 | Members map one to one, same length and order, with user fields and role copied |
| WorkspaceView.Transform | src/services/workspaceService.ts:23-40 | The view's id is the document's `_id`. Name, creation time and the owner's id, name and e-mail are copied. The members are copied one to one |
| WorkspaceView.Untransform | src/services/workspaceService.ts:23-40 | The inverse mapping rebuilds a document with the view's id, name and member count |
| WorkspaceView.TransformRoundTrip | src/services/workspaceService.ts:23-40 | Document to view and back, and view to document and back, are both the identity |
| WorkspaceView.TransformInjective | src/services/workspaceService.ts:23-40 | Different documents give different views |
| WorkspaceView.PopulateMembers | backend/routes/workspaces.js:15-16 | Populating members replaces each user reference by that user's profile and keeps roles and order |
| WorkspaceView.Populate | backend/routes/workspaces.js:10-19 | The populated document is readable by the client exactly when the owner and every member are known users, and then keeps id, name and the owner's profile. Otherwise Mongoose has left a reference null, the route still answers 200, and the result is `None` |
| WorkspaceView.FetchWorkspaces | src/services/workspaceService.ts:23-51 | The client gets a list exactly when no workspace in the response has a null reference. The list has one view per workspace, in response order, each the transform of the populated document |
| WorkspaceView.FetchShowsStored | src/services/workspaceService.ts:23-51 | With a consistent user directory and no dangling reference, each fetched view reads back as the stored workspace and its `createdAt` |
| WorkspaceView.PopulatedViewShowsWorkspace | src/services/workspaceService.ts:23-40 | With a consistent user directory, the view of a populated workspace shows its id, name, owner, and members with roles in stored order, and the stored workspace can be read back |
| CardDisplay.LabelCapitalisesName | src/components/kanban/TaskCard.tsx:36-40 | Each priority's label is its stored name with the first letter capitalised |
| CardDisplay.ParseLabel | src/components/kanban/TaskCard.tsx:36-40 | Reading a label back gives the priority it labels, so the label table is a bijection |
| CardDisplay.LabelInjective | src/components/kanban/TaskCard.tsx:36-40 | Different priorities have different labels |
| CardDisplay.BadgeTone | src/components/kanban/TaskCard.tsx:100-106 | The badge is red exactly for high, amber exactly for medium, green otherwise |
| CardDisplay.BadgeMatchesLabel | src/components/kanban/TaskCard.tsx:98-109 | Two badges share a colour exactly when they share a label |
| CardDisplay.First | src/components/kanban/TaskCard.tsx:131 | A segment contributes at most one character, and nothing exactly when it is empty |
| CardDisplay.FirstsOfSplit | src/components/kanban/TaskCard.tsx:131 | Mapping the segments to their first characters and joining them gives the word starts; so do the segments after the first for the text after the first word |
| CardDisplay.InitialsAreWordStarts | src/components/kanban/TaskCard.tsx:131 | The initials are exactly the characters that start a word (at the start or after a space), in order; repeated spaces add nothing |
| CardDisplay.InitialsShape | src/components/kanban/TaskCard.tsx:131 | Initials are never longer than the name and never contain a space; a one-word name gives its first character |
| CardDisplay.ShowsCommentsIff | src/components/kanban/TaskCard.tsx:50-125 | The comments indicator shows exactly for a present positive count; an absent count behaves as the default 0 |
| TaskForm.OrText | src/components/kanban/TaskModal.tsx:24-25 | `s \|\| d` keeps a non-empty string and replaces an absent or empty one by the default |
| TaskForm.OrZero | src/components/kanban/TaskModal.tsx:64 | `n \|\| 0` keeps a present count and gives 0 for an absent one |
| TaskForm.Initial | src/components/kanban/TaskModal.tsx:24-40 | On mount, and whenever a new non-null task arrives, the dialog takes the task's title and description or empty, its priority or medium, and its due date |
| TaskForm.Submit | src/components/kanban/TaskModal.tsx:52-66 | Nothing is saved exactly when the title is blank after trimming. Otherwise the title is saved untrimmed, the id defaults to "", the assignee passes through unchanged, and the comment count defaults to 0 |
| TaskForm.NewTaskDefaults | src/components/kanban/TaskModal.tsx:57-65 | A new task is saved with the empty id, no assignee and no comments |
| TaskForm.EditRoundTrip | src/components/kanban/TaskModal.tsx:33-66 | Opening a card and saving it untouched gives the same card back |
| TaskForm.SubmitIdempotent | src/components/kanban/TaskModal.tsx:52-66 | Saving a saved card's own fields again gives the same card |
| RegisterForm.Utf16Length | src/components/auth/RegisterForm.tsx:31 | `password.length` counts UTF-16 code units: between the number of characters and twice that |
| RegisterForm.Submit | src/components/auth/RegisterForm.tsx:21-45 | Every submit first clears the error and the network flag. Mismatched passwords then set "Passwords do not match", and a short password then sets the length message. `register(name, email, password)` is called exactly when both checks pass. After the call only a TypeError "Failed to fetch" sets the network flag |
| RegisterForm.ApplyAfterClear | src/components/auth/RegisterForm.tsx:23-24 | After the two clearing setter calls, the state no longer depends on what it was before |
| RegisterForm.AfterShows | src/components/auth/RegisterForm.tsx:21-45 | The form shows the mismatch message, or else the length message, with no network flag; after a call it shows no error, and the network flag exactly for a TypeError "Failed to fetch" |
| RegisterForm.SubmitClearsPrevious | src/components/auth/RegisterForm.tsx:23-24 | Applying a submit's setter calls to any two previous states gives the same state, because the handler clears both pieces of state first |
| RegisterForm.MismatchBeforeLength | src/components/auth/RegisterForm.tsx:26-34 | With mismatched short passwords the mismatch message wins |
| RegisterForm.OtherFailuresAreSilent | src/components/auth/RegisterForm.tsx:36-44 | Any failure other than a TypeError "Failed to fetch" leaves no error on the form |

## Left out

- Concurrency: each handler is one atomic transition. The read-then-write of "highest order + 1" and the separate `updateMany` calls of a move are not interleaved with other requests.
- Mongoose internals: `populate` (except as the `WorkspaceView.Populate` lookup, whose null references are modelled only as a client-side failure), `sort` tie-breaking, save dirty-tracking outside the move route and the `findOne` query planner are not modelled. The move save's dirty-tracking is modelled by `TaskRoutes.MoveTaskAsWritten`. `TaskRoutes.MoveTask` is the corrected save, which writes both `columnId` and `order`.
- Malformed ids: a string that is not an ObjectId makes Mongoose throw a CastError (500). The model answers NotFound for any route id that is not stored.
- TaskRoutes.LookupAssignee: a malformed `assignee.id` in a create or update body makes `User.findById` throw, so the source answers 500 (backend/routes/tasks.js:34-36, 85-86). The model treats it like an unknown user: no assignee on create, assignee kept on update.
- Dates: due dates are plain integers, and timestamps and `createdAt` defaults are not modelled. `createdAt` is carried as opaque text in the view. `formatDistanceToNow` and the date picker are left out.
- A `null` priority in a create body would be stored as null, because the priority path is not required and Mongoose's enum check skips null. The model's priority is either absent, which takes the default, or a string.
- The create body's `columnId` is always a string in the model. A `null` column fails the `required` check of backend/models/Task.js:21-26 and the route answers 500. With an absent column the schema default files the task under todo, while the order lookup at backend/routes/tasks.js:27-30 runs with an undefined column filter. What that lookup finds depends on how Mongoose casts an undefined filter value, so both cases are out of scope.
- Non-string titles, descriptions or names in request bodies are not modelled: every body field is typed.
- TaskRoutes.MovePreservesInv: `order` (backend/models/Task.js) and the move body's `newIndex` are integers in the model. The move route stores any JSON number unchecked (backend/routes/tasks.js:138, 166-177). A fractional `newIndex` breaks the invariant: with orders {0, 1} and `newIndex` 0.5, the `$gte` pass gives {0, 2} and the save gives {0, 0.5, 2}.
- AddMember: an explicit `null` role is not modelled; Mongoose's enum check would store it. An absent role gets "member". A body without `email` is modelled as a lookup that finds nothing, which depends on Mongoose's handling of an undefined filter.
- Re-validation on save of unchanged stored fields (add member, remove member) is not modelled: stored workspaces are assumed valid, which `WorkspaceRoutes.Inv` states.
- DeleteWorkspace: deleting a workspace does not touch tasks, and the cascade is not modelled. The routes never link tasks to workspaces.
- The board fetches `/tasks/:workspaceId`, which the task router does not define. `Board.GroupResponse` groups the list route's response instead.
- Board.HandleDragEnd: the PUT request and the re-fetch are not performed. The request's success is the `accepted` parameter, and a re-fetch is the `refetch` flag.
- Authentication, the socket relay, HTTP routing, token storage, `fetch`/`axios` calls and every page and presentational component are left out, including the members page. Its only rule, a blank-email guard, has a server-side counterpart that is modelled.
- CardDisplay.First: JavaScript's `n[0]` is a UTF-16 code unit, so a name starting with a character outside the Basic Multilingual Plane gives half a surrogate pair. Dafny characters are whole scalar values, so the model returns the whole character.
- TaskForm.OrZero: a `NaN` comment count (falsy in JavaScript) is not modelled.
- The task dialog's mock collaboration state (active people, typing indicator, timers) is left out.

## Findings

| source | as written | input that shows it | evidently intended | confidence | as-written member | corrected member |
|---|---|---|---|---|---|---|
| backend/routes/tasks.js:45-54 | `new Task({...})` sets no `workspace`, while backend/models/Task.js:47-51 declares `workspace` required, so `save()` throws and the route answers 500 | any create, e.g. title "a", columnId "todo" | the task is stored with the workspace it was created in | high, not executed | TaskRoutes.CreateTaskAsWritten | TaskRoutes.CreateTask |
| backend/routes/tasks.js:175-178 | `task` is read before the passes and `save()` writes only changed paths, so for a move to the task's own column and order nothing is written and the raise pass's +1 on the task stays | todo holds a:0 and b:1; PUT /a/move with sourceColumn todo, destinationColumn todo, newIndex 0 leaves a:1 and b:1 | a move to the task's own place leaves every order as it was | medium (depends on Mongoose skipping unchanged paths), not executed | TaskRoutes.MoveTaskAsWritten | TaskRoutes.MoveTask |

=== FILE: board.dfy ===
/** The board's client state (src/components/kanban/KanbanBoard.tsx and
    src/services/taskService.ts): tasks grouped into per-column lists, and the
    local list update after a drag ends.  The list positions in a column are
    the client's picture of the server's `order` values, and a drag sends the
    position it was dropped at as `newIndex`. */
module Board {
  import opened Wrappers
  import opened Ids
  import opened TaskModel
  import Grouping
  import Ordering
  import TaskRoutes

  /** A card on the board: the task fields the board keeps (`TaskCardProps`
      without `index` and the callbacks). */
  datatype CardTask = CardTask(
    id: TaskId,
    title: string,
    description: Option<string>,
    priority: Priority,
    dueDate: Option<int>,
    assignee: Option<Assignee>,
    commentsCount: Option<int>)

  /** The `tasks` state: column id to the cards of that column, in list order. */
  type Columns = map<string, seq<CardTask>>

  // ---------------------------------------------------------------------
  // Grouping the list route's response (KanbanBoard.tsx `fetchTasks`).

  /** The record pushed for one task of the response. */
  function ToCard(t: Task): (c: CardTask)
    ensures c.id == t.id && c.title == t.title && c.description == t.description
    ensures c.priority == t.priority && c.assignee == t.assignee
    ensures c.commentsCount == Some(t.commentsCount)
  {
    CardTask(t.id, t.title, t.description, t.priority, t.dueDate, t.assignee, Some(t.commentsCount))
  }

  /** The key the board files a task under: its stored column id. */
  function ColumnOf(t: Task): string {
    ColumnName(t.columnId)
  }

  /** `response.data.reduce(...)` starting from the four empty columns. */
  function GroupResponse(tasks: seq<Task>): (g: Columns)
  {
    Grouping.Group(tasks, ColumnOf, ToCard)
  }

  /** Every stored column id is one of the four, so the board has exactly the
      four column keys, and each column lists its tasks in response order. */
  lemma GroupResponseColumns(tasks: seq<Task>)
    ensures GroupResponse(tasks).Keys == set k | k in Grouping.ColumnKeys
    ensures forall c :: GroupResponse(tasks)[ColumnName(c)] == Grouping.Select(tasks, ColumnOf, ToCard, ColumnName(c))
  {
    Grouping.GroupIsSelect(tasks, ColumnOf, ToCard);
    forall k | Grouping.Carries(tasks, ColumnOf, k)
      ensures k in Grouping.ColumnKeys
    {
      var i :| 0 <= i < |tasks| && ColumnOf(tasks[i]) == k;
      assert k == ColumnName(tasks[i].columnId);
    }
    forall c
      ensures ColumnName(c) in Grouping.ColumnKeys
    {
    }
  }

  // ---------------------------------------------------------------------
  // Grouping in the task service (taskService.ts `fetchTasks`).

  /** A task as the service receives it; `columnId` may be missing. */
  datatype ServiceTask = ServiceTask(card: CardTask, columnId: Option<string>)

  /** `task.columnId || "todo"`: a missing or empty column id files the task under todo. */
  function ServiceKey(t: ServiceTask): (k: string)
    ensures t.columnId.None? || t.columnId.value == "" ==> k == "todo"
    ensures t.columnId.Some? && t.columnId.value != "" ==> k == t.columnId.value
  {
    if t.columnId.None? || t.columnId.value == "" then "todo" else t.columnId.value
  }

  function Same(t: ServiceTask): ServiceTask {
    t
  }

  /** The `forEach` grouping of the service. */
  function ServiceGroup(tasks: seq<ServiceTask>): (g: map<string, seq<ServiceTask>>)
  {
    Grouping.Group(tasks, ServiceKey, Same)
  }

  /** The service's grouping: the four column keys are always present; a key
      has a group exactly when it is one of them or some task files under it,
      so an unrecognised column id gets a group of its own; a task with no
      column id lands in todo; every group lists its tasks in input order;
      and the group sizes add up to the number of tasks. */
  lemma ServiceGroupFacts(tasks: seq<ServiceTask>)
    ensures forall k :: k in Grouping.ColumnKeys ==> k in ServiceGroup(tasks)
    ensures forall k :: k in ServiceGroup(tasks) <==> k in Grouping.ColumnKeys || Grouping.Carries(tasks, ServiceKey, k)
    ensures forall k :: k in ServiceGroup(tasks) ==> ServiceGroup(tasks)[k] == Grouping.Select(tasks, ServiceKey, Same, k)
    ensures forall i :: 0 <= i < |tasks| && (tasks[i].columnId.None? || tasks[i].columnId.value == "") ==>
              tasks[i] in ServiceGroup(tasks)["todo"]
    ensures Grouping.Total(ServiceGroup(tasks)) == |tasks|
  {
    Grouping.GroupIsSelect(tasks, ServiceKey, Same);
    Grouping.GroupTotal(tasks, ServiceKey, Same);
    forall i | 0 <= i < |tasks|
      ensures tasks[i] in ServiceGroup(tasks)[ServiceKey(tasks[i])]
    {
      Grouping.ItemInItsGroup(tasks, ServiceKey, Same, i);
    }
  }

  // ---------------------------------------------------------------------
  // handleDragEnd

  /** A `DraggableLocation`: a column id and a position in its list. */
  datatype Location = Location(droppableId: string, index: int)

  /** What a drag end leaves behind: the new `tasks` state, the move request
      sent (task id and body), and whether the board re-fetches. */
  datatype DragOutcome = DragOutcome(columns: Columns, sent: Option<(TaskId, TaskRoutes.MoveRequest)>, refetch: bool)

  /** The position `Array.prototype.slice` uses for the index `i` of a list of
      length `n`: a negative index counts from the end, and both are clamped. */
  function SliceIndex(i: int, n: nat): (p: nat)
    ensures p <= n
    ensures 0 <= i <= n ==> p == i
  {
    if i < 0 then (if n + i < 0 then 0 else n + i) else if i > n then n else i
  }

  /** `[...s.slice(0, i), x, ...s.slice(i)]`. */
  function SpliceIn(s: seq<CardTask>, i: int, x: CardTask): (r: seq<CardTask>)
    ensures r == Ordering.InsertAt(s, SliceIndex(i, |s|), x)
  {
    s[..SliceIndex(i, |s|)] + [x] + s[SliceIndex(i, |s|)..]
  }

  /** The drag was dropped where it started, or outside every column. */
  predicate NoMove(source: Location, destination: Option<Location>) {
    destination.None? || (destination.value.droppableId == source.droppableId && destination.value.index == source.index)
  }

  /** `tasks[source.droppableId][source.index]` is a card, so `movedTask.id` can be read. */
  predicate HasCard(tasks: Columns, source: Location) {
    source.droppableId in tasks && 0 <= source.index < |tasks[source.droppableId]|
  }

  /** `handleDragEnd`.  `accepted` is whether the `PUT /tasks/:id/move`
      request succeeded; any error (an undefined card, a failed request, a
      missing destination list) is caught and answered by re-fetching, and the
      state is set only after the whole local update succeeded. */
  function HandleDragEnd(tasks: Columns, source: Location, destination: Option<Location>, accepted: bool): (r: DragOutcome)
    ensures NoMove(source, destination) ==> r == DragOutcome(tasks, None, false)
    ensures !NoMove(source, destination) && !HasCard(tasks, source) ==> r == DragOutcome(tasks, None, true)
    ensures r.sent.Some? <==> !NoMove(source, destination) && HasCard(tasks, source)
    ensures r.sent.Some? ==>
              && r.sent.value.0 == tasks[source.droppableId][source.index].id
              && r.sent.value.1 == TaskRoutes.MoveRequest(source.droppableId, destination.value.droppableId, destination.value.index)
    ensures r.refetch ==> r.columns == tasks
    ensures r.sent.Some? && !accepted ==> r.refetch
    ensures r.columns.Keys == tasks.Keys
  {
    if NoMove(source, destination) then DragOutcome(tasks, None, false)
    else if !HasCard(tasks, source) then DragOutcome(tasks, None, true)
    else
      var dest := destination.value;
      var moved := tasks[source.droppableId][source.index];
      var sent := Some((moved.id, TaskRoutes.MoveRequest(source.droppableId, dest.droppableId, dest.index)));
      if !accepted then DragOutcome(tasks, sent, true)
      else
        var removed := tasks[source.droppableId := Ordering.RemoveAt(tasks[source.droppableId], source.index)];
        if dest.droppableId !in removed then DragOutcome(tasks, sent, true)
        else DragOutcome(removed[dest.droppableId := SpliceIn(removed[dest.droppableId], dest.index, moved)], sent, false)
  }

  /** A completed drag: the source list loses the card at `source.index`, the
      card is spliced into the destination list (after the removal when both
      are the same list), every other column is untouched, and no column
      appears or disappears. */
  lemma DragUpdatesLists(tasks: Columns, source: Location, destination: Option<Location>)
    requires !NoMove(source, destination) && HasCard(tasks, source)
    requires destination.value.droppableId in tasks
    ensures var r := HandleDragEnd(tasks, source, destination, true);
            var src := source.droppableId;
            var dst := destination.value.droppableId;
            var moved := tasks[src][source.index];
            var without := Ordering.RemoveAt(tasks[src], source.index);
            && !r.refetch
            && r.columns.Keys == tasks.Keys
            && (src != dst ==> r.columns[src] == without)
            && r.columns[dst] == SpliceIn(if src == dst then without else tasks[dst], destination.value.index, moved)
            && forall k :: k in tasks && k != src && k != dst ==> r.columns[k] == tasks[k]
  {
  }

  /** A drag keeps the number of cards on the board. */
  lemma DragKeepsCount(tasks: Columns, source: Location, destination: Option<Location>, accepted: bool)
    ensures Grouping.Total(HandleDragEnd(tasks, source, destination, accepted).columns) == Grouping.Total(tasks)
  {
    var r := HandleDragEnd(tasks, source, destination, accepted);
    if !NoMove(source, destination) && HasCard(tasks, source) && accepted && destination.value.droppableId in tasks {
      var src := source.droppableId;
      var dst := destination.value.droppableId;
      var removed := tasks[src := Ordering.RemoveAt(tasks[src], source.index)];
      Grouping.TotalUpdate(tasks, src, removed[src]);
      Grouping.TotalUpdate(removed, dst, r.columns[dst]);
      assert r.columns == removed[dst := r.columns[dst]];
    }
  }

  /** The dragged card sits at `destination.index` when that is a position of
      the destination list. */
  lemma DropLandsAtIndex(tasks: Columns, source: Location, destination: Option<Location>)
    requires !NoMove(source, destination) && HasCard(tasks, source)
    requires destination.value.droppableId in tasks
    requires 0 <= destination.value.index <= |tasks[destination.value.droppableId]| -
                                              (if destination.value.droppableId == source.droppableId then 1 else 0)
    ensures var r := HandleDragEnd(tasks, source, destination, true);
            r.columns[destination.value.droppableId][destination.value.index] == tasks[source.droppableId][source.index]
  {
    DragUpdatesLists(tasks, source, destination);
  }

  // ---------------------------------------------------------------------
  // The client's lists against the server's orders.

  /** The ids of a list of cards. */
  function CardIds(s: seq<CardTask>): (ids: seq<TaskId>)
    ensures |ids| == |s|
    ensures forall i :: 0 <= i < |s| ==> ids[i] == s[i].id
  {
    seq(|s|, i requires 0 <= i < |s| => s[i].id)
  }

  lemma CardIdsRemove(s: seq<CardTask>, i: int)
    requires 0 <= i < |s|
    ensures CardIds(Ordering.RemoveAt(s, i)) == Ordering.RemoveAt(CardIds(s), i)
  {
  }

  lemma CardIdsInsert(s: seq<CardTask>, p: int, x: CardTask)
    requires 0 <= p <= |s|
    ensures CardIds(Ordering.InsertAt(s, p, x)) == Ordering.InsertAt(CardIds(s), p, x.id)
  {
  }

  /** The server accepts a drag from a listed partition and keeps the invariant. */
  lemma ServerAcceptsDrag(db: TaskRoutes.Db, caller: UserId, ids: seq<TaskId>, si: int, cs: Column, cd: Column, di: int)
    requires TaskRoutes.Inv(db)
    requires Ordering.Represents(ids, TaskRoutes.Orders(db, caller, cs))
    requires 0 <= si < |ids|
    requires 0 <= di <= |TaskRoutes.Orders(db, caller, cd)| - (if cs == cd then 1 else 0)
    ensures var r := TaskRoutes.MoveTask(db, caller, ids[si], TaskRoutes.MoveRequest(ColumnName(cs), ColumnName(cd), di));
            r.1.Ok? && TaskRoutes.Inv(r.0)
  {
    var id := ids[si];
    assert TaskRoutes.Owns(db, caller, id) && db[id].columnId == cs by {
      assert id in TaskRoutes.Orders(db, caller, cs);
    }
    assert ParseColumn(ColumnName(cd)) == Some(cd);
    assert di <= |TaskRoutes.Orders(db - {id}, caller, cd)| by {
      var md := TaskRoutes.Orders(db, caller, cd);
      TaskRoutes.RemoveOrders(db, id, caller, cd);
      if cs == cd {
        assert |md - {id}| == |md| - 1;
      } else {
        assert id !in md;
        Ordering.WithoutAbsent(md, id);
      }
    }
    TaskRoutes.MovePreservesInv(db, caller, id, TaskRoutes.MoveRequest(ColumnName(cs), ColumnName(cd), di));
  }

  /** The board never sends the request for a card's own place: a drag within
      one column that ends at the card's own index returns early.  So the
      server's move as written, whose save skips unchanged paths, does what
      `MoveTask` does for every drag the board sends. */
  lemma DragAvoidsNoOpMove(db: TaskRoutes.Db, caller: UserId, tasks: Columns, source: Location, destination: Location, cs: Column, cd: Column)
    requires Mirrors(db, caller, tasks, source, destination, cs, cd)
    ensures var id := tasks[source.droppableId][source.index].id;
            var req := TaskRoutes.MoveRequest(source.droppableId, destination.droppableId, destination.index);
            !TaskRoutes.NoOpMove(db, id, req)
            && TaskRoutes.MoveTaskAsWritten(db, caller, id, req) == TaskRoutes.MoveTask(db, caller, id, req)
  {
    var ids := CardIds(tasks[source.droppableId]);
    var id := ids[source.index];
    var req := TaskRoutes.MoveRequest(source.droppableId, destination.droppableId, destination.index);
    assert id in TaskRoutes.Orders(db, caller, cs);
    assert db[id].columnId == cs && db[id].order == source.index;
    assert ParseColumn(ColumnName(cd)) == Some(cd);
    ColumnNameInjective(cs, cd);
    TaskRoutes.MoveAsWrittenAgrees(db, caller, id, req);
  }

  /** The server's partitions after an accepted drag from a listed partition:
      the source's gap is closed and the destination has a slot at `di`. */
  lemma ServerOrdersAfterDrag(db: TaskRoutes.Db, caller: UserId, ids: seq<TaskId>, si: int, cs: Column, cd: Column, di: int)
    requires TaskRoutes.WellFormed(db)
    requires Ordering.Represents(ids, TaskRoutes.Orders(db, caller, cs))
    requires 0 <= si < |ids|
    requires TaskRoutes.MoveTask(db, caller, ids[si], TaskRoutes.MoveRequest(ColumnName(cs), ColumnName(cd), di)).1.Ok?
    ensures var m := TaskRoutes.Orders(db, caller, cs);
            var md := TaskRoutes.Orders(db, caller, cd);
            var id := ids[si];
            var r := TaskRoutes.MoveTask(db, caller, id, TaskRoutes.MoveRequest(ColumnName(cs), ColumnName(cd), di));
            && id in m
            && (cs == cd ==> TaskRoutes.Orders(r.0, caller, cs) == Ordering.Open(Ordering.Close(m, id), id, di))
            && (cs != cd ==> && TaskRoutes.Orders(r.0, caller, cs) == Ordering.Close(m, id)
                             && id !in md
                             && TaskRoutes.Orders(r.0, caller, cd) == Ordering.Open(md, id, di))
  {
    var id := ids[si];
    var req := TaskRoutes.MoveRequest(ColumnName(cs), ColumnName(cd), di);
    assert id in TaskRoutes.Orders(db, caller, cs);
    assert db[id].id == id && db[id].columnId == cs;
    assert TaskRoutes.MoveTask(db, caller, id, req).1.value.columnId == cd by {
      ColumnNameInjective(TaskRoutes.MoveTask(db, caller, id, req).1.value.columnId, cd);
    }
    TaskRoutes.MoveOrders(db, caller, id, req, caller, cs);
    TaskRoutes.MoveOrders(db, caller, id, req, caller, cd);
  }

  /** The client side of a drag on two listed partitions: the source list
      after the removal lists the closed partition, and the destination list
      after the insertion lists the opened one. */
  lemma ClientSideOfDrag(tasks: Columns, source: Location, destination: Location, m: map<TaskId, int>, md: map<TaskId, int>)
    requires HasCard(tasks, source) && !NoMove(source, Some(destination))
    requires destination.droppableId in tasks
    requires Ordering.Represents(CardIds(tasks[source.droppableId]), m)
    requires Ordering.Represents(CardIds(tasks[destination.droppableId]), md)
    requires 0 <= destination.index <= |tasks[destination.droppableId]| - (if source.droppableId == destination.droppableId then 1 else 0)
    ensures var id := tasks[source.droppableId][source.index].id;
            var r := HandleDragEnd(tasks, source, Some(destination), true);
            && id in m
            && (source.droppableId == destination.droppableId ==>
                  Ordering.Represents(CardIds(r.columns[source.droppableId]), Ordering.Open(Ordering.Close(m, id), id, destination.index)))
            && (source.droppableId != destination.droppableId && id !in md ==>
                  && Ordering.Represents(CardIds(r.columns[source.droppableId]), Ordering.Close(m, id))
                  && Ordering.Represents(CardIds(r.columns[destination.droppableId]), Ordering.Open(md, id, destination.index)))
  {
    var src := source.droppableId;
    var dst := destination.droppableId;
    var si := source.index;
    var di := destination.index;
    var ids := CardIds(tasks[src]);
    var moved := tasks[src][si];
    var id := moved.id;
    assert ids[si] == id;
    DragUpdatesLists(tasks, source, Some(destination));
    var without := Ordering.RemoveAt(tasks[src], si);
    CardIdsRemove(tasks[src], si);
    Ordering.RemoveRefinesClose(ids, m, si);
    if src == dst {
      CardIdsInsert(without, di, moved);
      Ordering.InsertRefinesOpen(Ordering.RemoveAt(ids, si), Ordering.Close(m, id), id, di);
    } else if id !in md {
      CardIdsInsert(tasks[dst], di, moved);
      Ordering.InsertRefinesOpen(CardIds(tasks[dst]), md, id, di);
    }
  }

  /** A drag of a card onto another place of an existing column sends that
      card's move and re-fetches exactly when the request fails. */
  lemma DragSends(tasks: Columns, source: Location, destination: Location, accepted: bool)
    requires HasCard(tasks, source) && !NoMove(source, Some(destination))
    requires destination.droppableId in tasks
    ensures var r := HandleDragEnd(tasks, source, Some(destination), accepted);
            && r.sent == Some((tasks[source.droppableId][source.index].id,
                               TaskRoutes.MoveRequest(source.droppableId, destination.droppableId, destination.index)))
            && r.refetch == !accepted
  {
  }

  /** The headline refinement: when the board's source and destination lists
      list the server's partitions (position = order), a drag sends a move the
      server accepts, and afterwards the board's two lists list the server's
      new partitions.  `DragMatchesRefetch` turns this into equality with
      what a re-fetch would show. */
  lemma DragRefinesMove(db: TaskRoutes.Db, caller: UserId, tasks: Columns, source: Location, destination: Location, cs: Column, cd: Column)
    requires TaskRoutes.Inv(db)
    requires source.droppableId == ColumnName(cs) && destination.droppableId == ColumnName(cd)
    requires source.droppableId in tasks && destination.droppableId in tasks
    requires Ordering.Represents(CardIds(tasks[source.droppableId]), TaskRoutes.Orders(db, caller, cs))
    requires Ordering.Represents(CardIds(tasks[destination.droppableId]), TaskRoutes.Orders(db, caller, cd))
    requires 0 <= source.index < |tasks[source.droppableId]|
    requires !NoMove(source, Some(destination))
    requires 0 <= destination.index <= |tasks[destination.droppableId]| - (if cs == cd then 1 else 0)
    ensures var id := tasks[source.droppableId][source.index].id;
            var req := TaskRoutes.MoveRequest(source.droppableId, destination.droppableId, destination.index);
            var server := TaskRoutes.MoveTask(db, caller, id, req);
            var client := HandleDragEnd(tasks, source, Some(destination), server.1.Ok?);
            && client.sent == Some((id, req))
            && server.1.Ok? && !client.refetch
            && TaskRoutes.Inv(server.0)
            && Ordering.Represents(CardIds(client.columns[source.droppableId]), TaskRoutes.Orders(server.0, caller, cs))
            && Ordering.Represents(CardIds(client.columns[destination.droppableId]), TaskRoutes.Orders(server.0, caller, cd))
  {
    var src := source.droppableId;
    var id := tasks[src][source.index].id;
    var req := TaskRoutes.MoveRequest(src, destination.droppableId, destination.index);
    assert req == TaskRoutes.MoveRequest(ColumnName(cs), ColumnName(cd), destination.index);
    assert CardIds(tasks[src])[source.index] == id;
    ServerAcceptsDrag(db, caller, CardIds(tasks[src]), source.index, cs, cd, destination.index);
    DragSends(tasks, source, destination, true);
    ColumnNameInjective(cs, cd);
    if cs == cd {
      DragMirrorsSameColumn(db, caller, tasks, source, destination, cs);
    } else {
      DragMirrorsOtherColumn(db, caller, tasks, source, destination, cs, cd);
    }
  }

  /** The board's lists mirror the server's partitions for a drag from `cs`
      to `cd`: the setting of `DragRefinesMove`. */
  ghost predicate Mirrors(db: TaskRoutes.Db, caller: UserId, tasks: Columns, source: Location, destination: Location, cs: Column, cd: Column) {
    && TaskRoutes.Inv(db)
    && source.droppableId == ColumnName(cs) && destination.droppableId == ColumnName(cd)
    && source.droppableId in tasks && destination.droppableId in tasks
    && Ordering.Represents(CardIds(tasks[source.droppableId]), TaskRoutes.Orders(db, caller, cs))
    && Ordering.Represents(CardIds(tasks[destination.droppableId]), TaskRoutes.Orders(db, caller, cd))
    && 0 <= source.index < |tasks[source.droppableId]|
    && !NoMove(source, Some(destination))
    && 0 <= destination.index <= |tasks[destination.droppableId]| - (if cs == cd then 1 else 0)
  }

  /** A reorder within one column: the column's new list mirrors the
      server's partition after the move. */
  lemma DragMirrorsSameColumn(db: TaskRoutes.Db, caller: UserId, tasks: Columns, source: Location, destination: Location, c: Column)
    requires Mirrors(db, caller, tasks, source, destination, c, c)
    ensures var id := tasks[source.droppableId][source.index].id;
            var req := TaskRoutes.MoveRequest(source.droppableId, destination.droppableId, destination.index);
            var server := TaskRoutes.MoveTask(db, caller, id, req);
            var client := HandleDragEnd(tasks, source, Some(destination), true);
            Ordering.Represents(CardIds(client.columns[source.droppableId]), TaskRoutes.Orders(server.0, caller, c))
  {
    var ids := CardIds(tasks[source.droppableId]);
    var id := tasks[source.droppableId][source.index].id;
    assert ids[source.index] == id;
    var m := TaskRoutes.Orders(db, caller, c);
    ServerAcceptsDrag(db, caller, ids, source.index, c, c, destination.index);
    ServerOrdersAfterDrag(db, caller, ids, source.index, c, c, destination.index);
    ClientSideOfDrag(tasks, source, destination, m, m);
  }

  /** A move to another column: both new lists mirror the server's
      partitions after the move. */
  lemma DragMirrorsOtherColumn(db: TaskRoutes.Db, caller: UserId, tasks: Columns, source: Location, destination: Location, cs: Column, cd: Column)
    requires Mirrors(db, caller, tasks, source, destination, cs, cd)
    requires cs != cd
    ensures var id := tasks[source.droppableId][source.index].id;
            var req := TaskRoutes.MoveRequest(source.droppableId, destination.droppableId, destination.index);
            var server := TaskRoutes.MoveTask(db, caller, id, req);
            var client := HandleDragEnd(tasks, source, Some(destination), true);
            && Ordering.Represents(CardIds(client.columns[source.droppableId]), TaskRoutes.Orders(server.0, caller, cs))
            && Ordering.Represents(CardIds(client.columns[destination.droppableId]), TaskRoutes.Orders(server.0, caller, cd))
  {
    var ids := CardIds(tasks[source.droppableId]);
    var id := tasks[source.droppableId][source.index].id;
    assert ids[source.index] == id;
    ServerAcceptsDrag(db, caller, ids, source.index, cs, cd, destination.index);
    ServerOrdersAfterDrag(db, caller, ids, source.index, cs, cd, destination.index);
    ClientSideOfDrag(tasks, source, destination, TaskRoutes.Orders(db, caller, cs), TaskRoutes.Orders(db, caller, cd));
  }

  // ---------------------------------------------------------------------
  // A re-fetch: the list route's answer grouped into columns.

  /** The identity view, for selecting the tasks themselves rather than cards. */
  function Itself(t: Task): Task {
    t
  }

  /** The tasks of a listing filed under `col`, in listing order. */
  function ColumnTasks(r: seq<Task>, col: string): seq<Task> {
    Grouping.Select(r, ColumnOf, Itself, col)
  }

  /** A column holds exactly the listed tasks filed under it. */
  lemma {:induction false} ColumnTasksMembers(r: seq<Task>, col: string)
    ensures forall t :: t in ColumnTasks(r, col) <==> t in r && ColumnOf(t) == col
  {
    if r != [] {
      ColumnTasksMembers(r[1..], col);
      assert r == [r[0]] + r[1..];
    }
  }

  /** A column of a sorted listing without repeats is sorted and without repeats. */
  lemma {:induction false} ColumnTasksSorted(r: seq<Task>, col: string)
    requires TaskRoutes.SortedByOrder(r) && TaskRoutes.DistinctIds(r)
    ensures TaskRoutes.SortedByOrder(ColumnTasks(r, col)) && TaskRoutes.DistinctIds(ColumnTasks(r, col))
  {
    if r != [] {
      var rest := r[1..];
      ColumnTasksSorted(rest, col);
      ColumnTasksMembers(rest, col);
      assert forall i :: 0 <= i < |rest| ==> rest[i] == r[i + 1];
      assert forall x :: x in rest ==> r[0].order <= x.order && r[0].id != x.id;
    }
  }

  /** The cards of a column carry the ids of its tasks, position by position. */
  lemma {:induction false} ColumnCardIds(r: seq<Task>, col: string)
    ensures CardIds(Grouping.Select(r, ColumnOf, ToCard, col)) == TaskIds(ColumnTasks(r, col))
  {
    if r != [] {
      ColumnCardIds(r[1..], col);
    }
  }

  /** The ids of a list of tasks, position by position. */
  function TaskIds(ts: seq<Task>): (ids: seq<TaskId>)
    ensures |ids| == |ts|
    ensures forall j :: 0 <= j < |ts| ==> ids[j] == ts[j].id
  {
    seq(|ts|, j requires 0 <= j < |ts| => ts[j].id)
  }

  /** A sorted list of exactly the tasks of one partition of a consistent
      store, each once, lists that partition. */
  lemma SortedPartitionRepresents(db: TaskRoutes.Db, caller: UserId, c: Column, ts: seq<Task>)
    requires TaskRoutes.Inv(db)
    requires TaskRoutes.SortedByOrder(ts) && TaskRoutes.DistinctIds(ts)
    requires forall t :: t in ts <==> t in db.Values && t.createdBy == caller && t.columnId == c
    ensures Ordering.Represents(TaskIds(ts), TaskRoutes.Orders(db, caller, c))
  {
    var ids := TaskIds(ts);
    var m := TaskRoutes.Orders(db, caller, c);
    assert Ordering.Dense(m);
    forall j | 0 <= j < |ts|
      ensures ts[j].id in m && m[ts[j].id] == ts[j].order
    {
      assert ts[j] in ts;
      var k :| k in db && db[k] == ts[j];
      assert db[k].id == k;
    }
    forall k | k in m
      ensures k in ids
    {
      assert db[k] in ts;
      var j :| 0 <= j < |ts| && ts[j] == db[k];
      assert ids[j] == k;
    }
    forall i, j | 0 <= i < j < |ids|
      ensures m[ids[i]] < m[ids[j]]
    {
      assert ts[i].id != ts[j].id;
    }
    Ordering.SortedCoverRepresents(ids, m);
  }

  /** A re-fetch shows every partition as a list: grouping the list route's
      answer on a consistent store puts, in each column, the caller's task of
      order j at position j. */
  lemma RefetchRepresents(db: TaskRoutes.Db, caller: UserId, r: seq<Task>, c: Column)
    requires TaskRoutes.Inv(db) && TaskRoutes.Listing(db, caller, r)
    ensures ColumnName(c) in GroupResponse(r)
    ensures Ordering.Represents(CardIds(GroupResponse(r)[ColumnName(c)]), TaskRoutes.Orders(db, caller, c))
  {
    var col := ColumnName(c);
    GroupResponseColumns(r);
    var ts := ColumnTasks(r, col);
    ColumnTasksMembers(r, col);
    ColumnTasksSorted(r, col);
    ColumnCardIds(r, col);
    assert CardIds(GroupResponse(r)[col]) == TaskIds(ts);
    forall t
      ensures t in ts <==> t in db.Values && t.createdBy == caller && t.columnId == c
    {
      ColumnNameInjective(t.columnId, c);
      if t in db.Values && t.createdBy == caller {
        var k :| k in db && db[k] == t;
      }
    }
    SortedPartitionRepresents(db, caller, c, ts);
  }

  /** After an accepted drag the two touched columns show, card for card, what
      a re-fetch of the server's new state would show. */
  lemma DragMatchesRefetch(db: TaskRoutes.Db, caller: UserId, tasks: Columns, source: Location, destination: Location, cs: Column, cd: Column, listing: seq<Task>)
    requires Mirrors(db, caller, tasks, source, destination, cs, cd)
    requires var id := tasks[source.droppableId][source.index].id;
             var req := TaskRoutes.MoveRequest(source.droppableId, destination.droppableId, destination.index);
             TaskRoutes.Listing(TaskRoutes.MoveTask(db, caller, id, req).0, caller, listing)
    ensures var client := HandleDragEnd(tasks, source, Some(destination), true);
            && source.droppableId in GroupResponse(listing) && destination.droppableId in GroupResponse(listing)
            && CardIds(client.columns[source.droppableId]) == CardIds(GroupResponse(listing)[source.droppableId])
            && CardIds(client.columns[destination.droppableId]) == CardIds(GroupResponse(listing)[destination.droppableId])
  {
    var id := tasks[source.droppableId][source.index].id;
    var req := TaskRoutes.MoveRequest(source.droppableId, destination.droppableId, destination.index);
    var after := TaskRoutes.MoveTask(db, caller, id, req).0;
    var client := HandleDragEnd(tasks, source, Some(destination), true);
    DragRefinesMove(db, caller, tasks, source, destination, cs, cd);
    RefetchRepresents(after, caller, listing, cs);
    RefetchRepresents(after, caller, listing, cd);
    var ms := TaskRoutes.Orders(after, caller, cs);
    var md := TaskRoutes.Orders(after, caller, cd);
    assert Ordering.Dense(ms) && Ordering.Dense(md);
    Ordering.RepresentsUnique(CardIds(client.columns[source.droppableId]), CardIds(GroupResponse(listing)[source.droppableId]), ms);
    Ordering.RepresentsUnique(CardIds(client.columns[destination.droppableId]), CardIds(GroupResponse(listing)[destination.droppableId]), md);
  }
  /** The board's re-fetch after a drag the server accepts: `fetchTasks`
      reads the list route on the server's new state.  The two touched
      columns already show what that listing shows. */
  method RefetchAfterDrag(db: TaskRoutes.Db, caller: UserId, tasks: Columns, source: Location, destination: Location, cs: Column, cd: Column)
    returns (listing: seq<Task>)
    requires Mirrors(db, caller, tasks, source, destination, cs, cd)
    ensures var id := tasks[source.droppableId][source.index].id;
            var req := TaskRoutes.MoveRequest(source.droppableId, destination.droppableId, destination.index);
            TaskRoutes.Listing(TaskRoutes.MoveTask(db, caller, id, req).0, caller, listing)
    ensures var client := HandleDragEnd(tasks, source, Some(destination), true);
            && source.droppableId in GroupResponse(listing) && destination.droppableId in GroupResponse(listing)
            && CardIds(client.columns[source.droppableId]) == CardIds(GroupResponse(listing)[source.droppableId])
            && CardIds(client.columns[destination.droppableId]) == CardIds(GroupResponse(listing)[destination.droppableId])
  {
    var id := tasks[source.droppableId][source.index].id;
    var req := TaskRoutes.MoveRequest(source.droppableId, destination.droppableId, destination.index);
    ServerAcceptsDrag(db, caller, CardIds(tasks[source.droppableId]), source.index, cs, cd, destination.index);
    listing := TaskRoutes.ListTasks(TaskRoutes.MoveTask(db, caller, id, req).0, caller);
    DragMatchesRefetch(db, caller, tasks, source, destination, cs, cd, listing);
  }

  // ---------------------------------------------------------------------
  // A board that mirrors the server: one card "a" of user "u" in todo,
  // dragged to the top of the empty inProgress column.

  function OneTask(): Task {
    Task("a", "a", None, Medium, None, Todo, 0, None, 0, "u", Some("w"))
  }

  function OneCard(): CardTask {
    CardTask("a", "a", None, Medium, None, None, None)
  }

  function OneCardBoard(): Columns {
    map["todo" := [OneCard()], "inProgress" := [], "blocked" := [], "done" := []]
  }

  /** The store holding only task "a" keeps the invariant. */
  lemma OneTaskInv()
    ensures TaskRoutes.Inv(map["a" := OneTask()])
  {
    var db := map["a" := OneTask()];
    forall u, c ensures Ordering.Dense(TaskRoutes.Orders(db, u, c)) {
      var m := TaskRoutes.Orders(db, u, c);
      if u == "u" && c == Todo {
        assert m == map["a" := 0];
        assert Ordering.Occupied(m, 0) by { assert m["a"] == 0; }
      } else {
        assert m == map[];
      }
    }
  }

  /** The one-card board mirrors that store for the drag from todo to
      inProgress, so `DragMatchesRefetch` and `RefetchAfterDrag` apply to
      at least one real drag. */
  lemma OneCardDragMirrors()
    ensures Mirrors(map["a" := OneTask()], "u", OneCardBoard(), Location("todo", 0), Location("inProgress", 0), Todo, InProgress)
  {
    var db := map["a" := OneTask()];
    OneTaskInv();
    assert TaskRoutes.Orders(db, "u", Todo) == map["a" := 0];
    assert TaskRoutes.Orders(db, "u", InProgress) == map[];
    assert CardIds([OneCard()]) == ["a"];
  }
}

=== FILE: grouping.dfy ===
/** Grouping a list of tasks into board columns, as both the board's
    `fetchTasks` (src/components/kanban/KanbanBoard.tsx) and the task
    service's `fetchTasks` (src/services/taskService.ts) do: start from the
    four column keys with empty lists, then walk the input in order, creating
    a list for a key not seen yet and appending the item to its key's list. */
module Grouping {

  /** The keys every board starts with. */
  const ColumnKeys: seq<string> := ["todo", "inProgress", "blocked", "done"]

  /** The initial state: the four column keys, each with an empty list. */
  function Initial<U>(): (g: map<string, seq<U>>)
    ensures g.Keys == set k | k in ColumnKeys
    ensures forall k :: k in g ==> g[k] == []
  {
    map["todo" := [], "inProgress" := [], "blocked" := [], "done" := []]
  }

  /** The reduce/forEach loop: `items` in order, each appended to the list of
      `key(item)` as `view(item)`. */
  function Group<T, U>(items: seq<T>, key: T -> string, view: T -> U): (g: map<string, seq<U>>)
    decreases |items|
  {
    if items == [] then Initial()
    else
      var n := |items| - 1;
      var acc := Group(items[..n], key, view);
      var k := key(items[n]);
      acc[k := (if k in acc then acc[k] else []) + [view(items[n])]]
  }

  /** Some item carries the key `k`. */
  predicate Carries<T>(items: seq<T>, key: T -> string, k: string) {
    exists i :: 0 <= i < |items| && key(items[i]) == k
  }

  /** Reference definition: the views of the items with key `k`, in input order. */
  function Select<T, U>(items: seq<T>, key: T -> string, view: T -> U, k: string): (r: seq<U>)
    ensures |r| <= |items|
  {
    if items == [] then []
    else (if key(items[0]) == k then [view(items[0])] else []) + Select(items[1..], key, view, k)
  }

  /** Selecting from a list with one more item at the end. */
  lemma {:induction false} SelectSnoc<T, U>(items: seq<T>, x: T, key: T -> string, view: T -> U, k: string)
    ensures Select(items + [x], key, view, k) ==
            Select(items, key, view, k) + (if key(x) == k then [view(x)] else [])
  {
    if items != [] {
      assert (items + [x])[1..] == items[1..] + [x];
      SelectSnoc(items[1..], x, key, view, k);
    }
  }

  /** A key has a group exactly when it is a column key or some item carries
      it (an unrecognised key gets a group of its own rather than being
      dropped), and each group is the reference selection. */
  lemma {:induction false} GroupIsSelect<T, U>(items: seq<T>, key: T -> string, view: T -> U)
    ensures forall k :: k in Group(items, key, view) <==> k in ColumnKeys || Carries(items, key, k)
    ensures forall k :: k in Group(items, key, view) ==> Group(items, key, view)[k] == Select(items, key, view, k)
  {
    if items != [] {
      var n := |items| - 1;
      var front := items[..n];
      GroupIsSelect(front, key, view);
      assert items == front + [items[n]];
      forall k
        ensures Select(items, key, view, k) == Select(front, key, view, k) + (if key(items[n]) == k then [view(items[n])] else [])
      {
        SelectSnoc(front, items[n], key, view, k);
      }
      forall k
        ensures k !in Group(front, key, view) ==> Select(front, key, view, k) == []
      {
        if k !in Group(front, key, view) {
          SelectNone(front, key, view, k);
        }
      }
      forall k
        ensures Carries(items, key, k) <==> Carries(front, key, k) || key(items[n]) == k
      {
        if Carries(items, key, k) {
          var i :| 0 <= i < |items| && key(items[i]) == k;
          if i < n {
            assert key(front[i]) == k;
          }
        }
        if Carries(front, key, k) {
          var i :| 0 <= i < n && key(front[i]) == k;
          assert key(items[i]) == k;
        }
      }
    }
  }

  /** No item carries `k`: nothing is selected. */
  lemma {:induction false} SelectNone<T, U>(items: seq<T>, key: T -> string, view: T -> U, k: string)
    requires forall i :: 0 <= i < |items| ==> key(items[i]) != k
    ensures Select(items, key, view, k) == []
  {
    if items != [] {
      SelectNone(items[1..], key, view, k);
    }
  }

  /** The four column keys are always present, even for an empty input. */
  lemma AlwaysFourColumns<T, U>(items: seq<T>, key: T -> string, view: T -> U)
    ensures forall k :: k in ColumnKeys ==> k in Group(items, key, view)
  {
    GroupIsSelect(items, key, view);
  }

  /** Every item lands in the group of its own key. */
  lemma ItemInItsGroup<T, U>(items: seq<T>, key: T -> string, view: T -> U, i: int)
    requires 0 <= i < |items|
    ensures key(items[i]) in Group(items, key, view)
    ensures view(items[i]) in Group(items, key, view)[key(items[i])]
  {
    GroupIsSelect(items, key, view);
    SelectHas(items, key, view, i);
  }

  /** The selection for an item's key contains that item's view. */
  lemma {:induction false} SelectHas<T, U>(items: seq<T>, key: T -> string, view: T -> U, i: int)
    requires 0 <= i < |items|
    ensures view(items[i]) in Select(items, key, view, key(items[i]))
  {
    if i > 0 {
      SelectHas(items[1..], key, view, i - 1);
    }
  }

  // ---------------------------------------------------------------------
  // Total size of a grouping.

  /** The sum of the list lengths of a grouping. */
  ghost function Total<U>(g: map<string, seq<U>>): (n: nat)
    decreases |g|
  {
    if forall k :: k !in g then 0
    else
      var k :| k in g;
      |g[k]| + Total(g - {k})
  }

  /** The total does not depend on which key is taken out first. */
  lemma {:induction false} TotalWithout<U>(g: map<string, seq<U>>, k: string)
    requires k in g
    ensures Total(g) == |g[k]| + Total(g - {k})
    decreases |g|
  {
    if forall j :: j !in g {
      assert false;
    }
    var j :| j in g && Total(g) == |g[j]| + Total(g - {j});
    if j != k {
      var rest := g - {j};
      assert k in rest;
      TotalWithout(rest, k);
      TotalWithout(g - {k}, j);
      assert rest - {k} == (g - {k}) - {j};
    }
  }

  /** Replacing one list changes the total by the difference in length. */
  lemma TotalUpdate<U>(g: map<string, seq<U>>, k: string, s: seq<U>)
    ensures Total(g[k := s]) == Total(g) - (if k in g then |g[k]| else 0) + |s|
  {
    var h := g[k := s];
    TotalWithout(h, k);
    if k in g {
      TotalWithout(g, k);
      assert h - {k} == g - {k};
    } else {
      assert h - {k} == g;
    }
  }

  /** A grouping whose lists are all empty has total 0. */
  lemma {:induction false} TotalEmpty<U>(g: map<string, seq<U>>)
    requires forall k :: k in g ==> g[k] == []
    ensures Total(g) == 0
    decreases |g|
  {
    if !forall k :: k !in g {
      var k :| k in g && Total(g) == |g[k]| + Total(g - {k});
      TotalEmpty(g - {k});
    }
  }

  /** The group sizes sum to the input length: nothing is lost or repeated. */
  lemma {:induction false} GroupTotal<T, U>(items: seq<T>, key: T -> string, view: T -> U)
    ensures Total(Group(items, key, view)) == |items|
  {
    if items == [] {
      TotalEmpty(Initial<U>());
    } else {
      var n := |items| - 1;
      var acc := Group(items[..n], key, view);
      var k := key(items[n]);
      GroupTotal(items[..n], key, view);
      TotalUpdate(acc, k, (if k in acc then acc[k] else []) + [view(items[n])]);
    }
  }
}

=== FILE: models.dfy ===
/** Identifiers.  MongoDB ObjectIds are compared through `toString()` in the
    source, so they are modelled as strings. */
module Ids {
  type TaskId = string
  type UserId = string
  type WorkspaceId = string
}

/** The Mongoose schema of a task (backend/models/Task.js): its enumerations,
    its defaults, the `trim` setters, and the validation run on `save()`. */
module TaskModel {
  import opened Wrappers
  import opened Ids
  import Text

  datatype Priority = Low | Medium | High

  /** The string stored for a priority. */
  function PriorityName(p: Priority): string {
    match p
    case Low => "low"
    case Medium => "medium"
    case High => "high"
  }

  /** The enum validator of `priority`: accepts exactly the three names. */
  function ParsePriority(s: string): (r: Option<Priority>)
    ensures r.Some? ==> PriorityName(r.value) == s
    ensures forall p :: PriorityName(p) == s ==> r == Some(p)
  {
    if s == "low" then Some(Low)
    else if s == "medium" then Some(Medium)
    else if s == "high" then Some(High)
    else None
  }

  const DefaultPriority: Priority := Medium

  datatype Column = Todo | InProgress | Blocked | Done

  /** The string stored for a column; also the board's droppable id. */
  function ColumnName(c: Column): string {
    match c
    case Todo => "todo"
    case InProgress => "inProgress"
    case Blocked => "blocked"
    case Done => "done"
  }

  /** The enum validator of `columnId`: accepts exactly the four names. */
  function ParseColumn(s: string): (r: Option<Column>)
    ensures r.Some? ==> ColumnName(r.value) == s
    ensures forall c :: ColumnName(c) == s ==> r == Some(c)
  {
    if s == "todo" then Some(Todo)
    else if s == "inProgress" then Some(InProgress)
    else if s == "blocked" then Some(Blocked)
    else if s == "done" then Some(Done)
    else None
  }

  const DefaultColumn: Column := Todo

  /** The four columns in board order. */
  const Columns: seq<Column> := [Todo, InProgress, Blocked, Done]

  /** Distinct columns are stored under distinct names, so comparing the
      stored strings (as the queries do) is comparing columns. */
  lemma ColumnNameInjective(c1: Column, c2: Column)
    ensures ColumnName(c1) == ColumnName(c2) <==> c1 == c2
  {
    var r := ParseColumn(ColumnName(c1));
    assert r == Some(c1);
  }

  const DefaultOrder: int := 0
  const DefaultCommentsCount: int := 0

  datatype Assignee = Assignee(id: UserId, name: string)

  /** A stored task document (timestamps are not modelled). */
  datatype Task = Task(
    id: TaskId,
    title: string,
    description: Option<string>,
    priority: Priority,
    dueDate: Option<int>,
    columnId: Column,
    order: int,
    assignee: Option<Assignee>,
    commentsCount: int,
    createdBy: UserId,
    workspace: Option<WorkspaceId>)

  /** The values handed to `new Task({...})`, before casting and validation;
      `None` is a path left unset. */
  datatype TaskDraft = TaskDraft(
    title: Option<string>,
    description: Option<string>,
    priority: Option<string>,
    dueDate: Option<int>,
    columnId: Option<string>,
    order: Option<int>,
    assignee: Option<Assignee>,
    createdBy: UserId,
    workspace: Option<WorkspaceId>)

  /** What `save()` accepts of a document already in typed form: the
      required `title` (non-empty after the trim setter) and the required
      `workspace` reference; the trim setters leave title and description
      trimmed. */
  predicate Valid(t: Task) {
    && t.title != ""
    && Text.Trimmed(t.title)
    && (t.description.Some? ==> Text.Trimmed(t.description.value))
    && t.workspace.Some?
  }

  /** `new Task(draft)` followed by the validation of `save()`: `None` when
      validation fails.  Unset paths take the schema defaults. */
  function Build(id: TaskId, d: TaskDraft): (r: Option<Task>)
    ensures r.Some? <==>
      && d.title.Some? && !Text.Blank(d.title.value)
      && (d.priority.Some? ==> ParsePriority(d.priority.value).Some?)
      && (d.columnId.Some? ==> ParseColumn(d.columnId.value).Some?)
      && d.workspace.Some?
    ensures r.Some? ==> Valid(r.value)
    ensures r.Some? ==>
      var t := r.value;
      && t.id == id
      && t.title == Text.Trim(d.title.value)
      && (d.description.None? ==> t.description.None?)
      && (d.description.Some? ==> t.description == Some(Text.Trim(d.description.value)))
      && (d.priority.None? ==> t.priority == DefaultPriority)
      && (d.priority.Some? ==> PriorityName(t.priority) == d.priority.value)
      && (d.columnId.None? ==> t.columnId == DefaultColumn)
      && (d.columnId.Some? ==> ColumnName(t.columnId) == d.columnId.value)
      && t.order == d.order.GetOr(DefaultOrder)
      && t.commentsCount == DefaultCommentsCount
      && t.createdBy == d.createdBy
      && t.workspace == d.workspace
      && t.assignee == d.assignee
      && t.dueDate == d.dueDate
  {
    if d.title.None? || Text.Blank(d.title.value) || d.workspace.None? then None
    else
      var priority := CastPriority(d.priority);
      var column := CastColumn(d.columnId);
      if priority.None? || column.None? then None
      else
        Some(Task(id, Text.Trim(d.title.value), TrimmedText(d.description), priority.value, d.dueDate,
                  column.value, d.order.GetOr(DefaultOrder), d.assignee, DefaultCommentsCount,
                  d.createdBy, d.workspace))
  }

  /** The `priority` path after casting: the default when unset, `None` when
      the enum validator rejects the value. */
  function CastPriority(s: Option<string>): (r: Option<Priority>)
    ensures s.None? ==> r == Some(DefaultPriority)
    ensures s.Some? ==> r == ParsePriority(s.value)
  {
    if s.None? then Some(DefaultPriority) else ParsePriority(s.value)
  }

  /** The `columnId` path after casting: the default when unset, `None` when
      the enum validator rejects the value. */
  function CastColumn(s: Option<string>): (r: Option<Column>)
    ensures s.None? ==> r == Some(DefaultColumn)
    ensures s.Some? ==> r == ParseColumn(s.value)
  {
    if s.None? then Some(DefaultColumn) else ParseColumn(s.value)
  }

  /** An optional string path with a `trim` setter. */
  function TrimmedText(s: Option<string>): (r: Option<string>)
    ensures s.None? ==> r.None?
    ensures s.Some? ==> r == Some(Text.Trim(s.value)) && Text.Trimmed(r.value)
  {
    if s.None? then None else Some(Text.Trim(s.value))
  }
}

/** The Mongoose schema of a workspace (backend/models/Workspace.js). */
module WorkspaceModel {
  import opened Wrappers
  import opened Ids
  import Text

  datatype Role = Owner | Admin | Member

  function RoleName(r: Role): string {
    match r
    case Owner => "owner"
    case Admin => "admin"
    case Member => "member"
  }

  /** The enum validator of `members.role`. */
  function ParseRole(s: string): (r: Option<Role>)
    ensures r.Some? ==> RoleName(r.value) == s
    ensures forall role :: RoleName(role) == s ==> r == Some(role)
  {
    if s == "owner" then Some(Owner)
    else if s == "admin" then Some(Admin)
    else if s == "member" then Some(Member)
    else None
  }

  const DefaultRole: Role := Member

  /** One entry of the ordered `members` list. */
  datatype MemberEntry = MemberEntry(user: UserId, role: Role)

  /** A stored workspace (`createdAt` is not modelled). */
  datatype Workspace = Workspace(id: WorkspaceId, name: string, owner: UserId, members: seq<MemberEntry>)

  /** A member entry before casting: the role may be unset. */
  datatype MemberDraft = MemberDraft(user: UserId, role: Option<string>)

  /** What `save()` accepts: the required, trimmed `name`. */
  predicate Valid(w: Workspace) {
    w.name != "" && Text.Trimmed(w.name)
  }

  /** `new Workspace({...})` (or an assignment to `members`) followed by the
      validation of `save()`. */
  function Build(id: WorkspaceId, name: Option<string>, owner: UserId, members: seq<MemberDraft>): (r: Option<Workspace>)
    ensures r.Some? <==>
      && name.Some? && !Text.Blank(name.value)
      && forall i :: 0 <= i < |members| && members[i].role.Some? ==> ParseRole(members[i].role.value).Some?
    ensures r.Some? ==> Valid(r.value)
    ensures r.Some? ==>
      && r.value.id == id
      && r.value.name == Text.Trim(name.value)
      && r.value.owner == owner
      && |r.value.members| == |members|
      && forall i :: 0 <= i < |members| ==>
           && r.value.members[i].user == members[i].user
           && (members[i].role.None? ==> r.value.members[i].role == DefaultRole)
           && (members[i].role.Some? ==> RoleName(r.value.members[i].role) == members[i].role.value)
  {
    if name.None? || Text.Blank(name.value) then None
    else
      var entries := CastMembers(members);
      if entries.None? then None
      else
        Text.TrimIdempotent(name.value);
        Some(Workspace(id, Text.Trim(name.value), owner, entries.value))
  }

  /** Casts the member entries, defaulting unset roles; `None` when a role
      fails the enum validator. */
  function CastMembers(members: seq<MemberDraft>): (r: Option<seq<MemberEntry>>)
    ensures r.Some? <==>
      forall i :: 0 <= i < |members| && members[i].role.Some? ==> ParseRole(members[i].role.value).Some?
    ensures r.Some? ==>
      && |r.value| == |members|
      && forall i :: 0 <= i < |members| ==>
           && r.value[i].user == members[i].user
           && (members[i].role.None? ==> r.value[i].role == DefaultRole)
           && (members[i].role.Some? ==> RoleName(r.value[i].role) == members[i].role.value)
  {
    if members == [] then Some([])
    else
      var m := members[0];
      var role := if m.role.None? then Some(DefaultRole) else ParseRole(m.role.value);
      var rest := CastMembers(members[1..]);
      if role.None? then None
      else if rest.None? then
        assert forall i :: 0 <= i < |members| - 1 ==> members[1..][i] == members[i + 1];
        None
      else Some([MemberEntry(m.user, role.value)] + rest.value)
  }
}

=== FILE: ordering.dfy ===
/** Manual ordering within one partition (one user's tasks in one column),
    abstracted from the store: `m` maps each task of the partition to its
    `order`.  The server keeps these maps dense; it changes them only by
    closing a gap (`Close`) and by opening a slot (`Open`).  The client
    keeps the same partition as a list whose positions are the orders. */
module Ordering {

  /** Some task of the partition has order `j`. */
  ghost predicate Occupied<K>(m: map<K, int>, j: int) {
    exists k :: k in m && m[k] == j
  }

  /** The orders of the partition are exactly 0 .. |m|-1, each used once. */
  ghost predicate Dense<K>(m: map<K, int>) {
    && (forall k :: k in m ==> 0 <= m[k] < |m|)
    && (forall k1, k2 :: k1 in m && k2 in m && m[k1] == m[k2] ==> k1 == k2)
    && (forall j :: 0 <= j < |m| ==> Occupied(m, j))
  }

  /** The `$inc: -1` pass: decrements every order above `o`. */
  function Lower<K>(m: map<K, int>, o: int): (r: map<K, int>)
    ensures r.Keys == m.Keys
    ensures forall k :: k in m ==> r[k] == if m[k] > o then m[k] - 1 else m[k]
  {
    map k | k in m :: if m[k] > o then m[k] - 1 else m[k]
  }

  /** The `$inc: 1` pass: increments every order at or above `p`. */
  function Raise<K>(m: map<K, int>, p: int): (r: map<K, int>)
    ensures r.Keys == m.Keys
    ensures forall k :: k in m ==> r[k] == if m[k] >= p then m[k] + 1 else m[k]
  {
    map k | k in m :: if m[k] >= p then m[k] + 1 else m[k]
  }

  /** Closing the gap `x` leaves: remove `x`, then lower every order above its own
      (a delete, or the source side of a move). */
  function Close<K(==)>(m: map<K, int>, x: K): (r: map<K, int>)
    requires x in m
    ensures r.Keys == m.Keys - {x}
    ensures |r| == |m| - 1
  {
    var rest := m - {x};
    assert rest.Keys == m.Keys - {x};
    Lower(rest, m[x])
  }

  /** Opening a slot at `p`: raise every order at or above `p`, then place `x`
      at `p` (the destination side of a move). */
  function Open<K(==)>(m: map<K, int>, x: K, p: int): (r: map<K, int>)
    requires x !in m
    ensures r.Keys == m.Keys + {x}
    ensures |r| == |m| + 1
  {
    Raise(m, p)[x := p]
  }

  /** Taking out a key the partition does not hold changes nothing. */
  lemma WithoutAbsent<K>(m: map<K, int>, x: K)
    requires x !in m
    ensures m - {x} == m
  {
  }

  /** Taking a key out commutes with the decrement pass. */
  lemma LowerWithout<K>(m: map<K, int>, o: int, x: K)
    ensures Lower(m, o) - {x} == Lower(m - {x}, o)
  {
  }

  /** Taking a key out commutes with the increment pass. */
  lemma RaiseWithout<K>(m: map<K, int>, p: int, x: K)
    ensures Raise(m, p) - {x} == Raise(m - {x}, p)
  {
  }

  /** The effect of a move on one partition, from the two passes and the
      save: `isSrc` when the partition holds `x`, `isDst` when `x` is saved
      into it, `lowered` when the decrement pass ran on it. */
  lemma PassesThenSave<K>(m: map<K, int>, x: K, o: int, p: int, isSrc: bool, lowered: bool, isDst: bool)
    requires isSrc ==> x in m && m[x] == o
    requires !isSrc ==> x !in m && !lowered
    ensures var m1 := if lowered then Lower(m, o) else m;
            var m2 := if isDst then Raise(m1, p) else m1;
            (if isDst then (m2 - {x})[x := p] else m2 - {x}) ==
              if isSrc && isDst then (if lowered then Open(Close(m, x), x, p) else Open(m - {x}, x, p))
              else if isSrc then (if lowered then Close(m, x) else m - {x})
              else if isDst then Open(m, x, p)
              else m
  {
    if isSrc && isDst && lowered {
      MoveAcrossPasses(m, x, o, p);
    } else if isSrc && isDst {
      RaiseThenSave(m - {x}, x, p);
      RaiseWithout(m, p, x);
    } else if isSrc && lowered {
      LowerWithout(m, o, x);
    } else if isDst {
      RaiseThenSave(m, x, p);
    } else if !isSrc {
      WithoutAbsent(m, x);
    }
  }

  /** A task moved within its partition: lowered, raised, then saved at `p`. */
  lemma MoveAcrossPasses<K>(m: map<K, int>, x: K, o: int, p: int)
    requires x in m && m[x] == o
    ensures (Raise(Lower(m, o), p) - {x})[x := p] == Open(Close(m, x), x, p)
  {
    LowerWithout(m, o, x);
    RaiseWithout(Lower(m, o), p, x);
  }

  /** A task saved into a partition that does not hold it, after the raise. */
  lemma RaiseThenSave<K>(m: map<K, int>, x: K, p: int)
    requires x !in m
    ensures (Raise(m, p) - {x})[x := p] == Open(m, x, p)
  {
    RaiseWithout(m, p, x);
    WithoutAbsent(m, x);
  }

  /** Closing a gap keeps a partition dense. */
  lemma CloseDense<K>(m: map<K, int>, x: K)
    requires Dense(m) && x in m
    ensures Dense(Close(m, x))
  {
    var r := Close(m, x);
    var n := |m|;
    forall k | k in r
      ensures 0 <= r[k] < |r|
    {
      assert m[k] != m[x];
    }
    forall j | 0 <= j < |r|
      ensures Occupied(r, j)
    {
      if j < m[x] {
        assert Occupied(m, j);
        var k :| k in m && m[k] == j;
        assert k in r && r[k] == j;
      } else {
        assert Occupied(m, j + 1);
        var k :| k in m && m[k] == j + 1;
        assert k in r && r[k] == j;
      }
    }
  }

  /** Opening a slot at a valid insertion position keeps a partition dense. */
  lemma OpenDense<K>(m: map<K, int>, x: K, p: int)
    requires Dense(m) && x !in m
    requires 0 <= p <= |m|
    ensures Dense(Open(m, x, p))
  {
    var r := Open(m, x, p);
    OpenInRangeAndDistinct(m, x, p);
    forall j | 0 <= j < |r|
      ensures Occupied(r, j)
    {
      OpenOccupies(m, x, p, j);
    }
  }

  /** After opening a slot every order lies in 0 .. |m| and no two tasks
      share one. */
  lemma OpenInRangeAndDistinct<K>(m: map<K, int>, x: K, p: int)
    requires Dense(m) && x !in m
    requires 0 <= p <= |m|
    ensures forall k :: k in Open(m, x, p) ==> 0 <= Open(m, x, p)[k] < |m| + 1
    ensures forall k1, k2 :: k1 in Open(m, x, p) && k2 in Open(m, x, p) && Open(m, x, p)[k1] == Open(m, x, p)[k2] ==> k1 == k2
  {
    var r := Open(m, x, p);
    var raised := Raise(m, p);
    assert forall k :: k in m ==> r[k] == raised[k];
    forall k1, k2 | k1 in r && k2 in r && r[k1] == r[k2]
      ensures k1 == k2
    {
      if k1 != x && k2 != x {
        assert m[k1] == m[k2];
      }
    }
  }

  /** Each order 0 .. |m| is taken after opening a slot: the orders below
      `p` by the same tasks, `p` by `x`, the rest by the tasks one below. */
  lemma OpenOccupies<K>(m: map<K, int>, x: K, p: int, j: int)
    requires Dense(m) && x !in m
    requires 0 <= p <= |m| && 0 <= j <= |m|
    ensures Occupied(Open(m, x, p), j)
  {
    var r := Open(m, x, p);
    if j < p {
      assert Occupied(m, j);
      var k :| k in m && m[k] == j;
      assert k in r && r[k] == j;
    } else if j == p {
      assert x in r && r[x] == j;
    } else {
      assert Occupied(m, j - 1);
      var k :| k in m && m[k] == j - 1;
      assert k in r && r[k] == j;
    }
  }

  /** In a dense, non-empty partition the highest order is |m| - 1, so
      "highest order + 1" is the size of the partition. */
  lemma DenseMax<K>(m: map<K, int>)
    requires Dense(m) && |m| > 0
    ensures Occupied(m, |m| - 1)
    ensures forall k :: k in m ==> m[k] <= |m| - 1
  {
  }

  /** Appending a task after the highest order is opening a slot at the end. */
  lemma AppendIsOpenAtEnd<K>(m: map<K, int>, x: K)
    requires Dense(m) && x !in m
    ensures m[x := |m|] == Open(m, x, |m|)
  {
    var r := Open(m, x, |m|);
    forall k | k in m
      ensures r[k] == m[k]
    {
    }
  }

  /** The largest element of a finite non-empty set. */
  function MaxOf(s: set<int>): (m: int)
    requires s != {}
    ensures m in s && forall x :: x in s ==> x <= m
  {
    MaxExists(s);
    var m :| m in s && forall x :: x in s ==> x <= m;
    m
  }

  lemma {:induction false} MaxExists(s: set<int>)
    requires s != {}
    ensures exists m :: m in s && forall x :: x in s ==> x <= m
  {
    if forall x :: x !in s {
      assert false;
    }
    var y :| y in s;
    if s == {y} {
      assert forall x :: x in s ==> x <= y;
    } else {
      MaxExists(s - {y});
      var m :| m in s - {y} && forall x :: x in s - {y} ==> x <= m;
      var top := if y > m then y else m;
      forall x | x in s
        ensures x <= top
      {
        if x != y {
          assert x in s - {y};
        }
      }
      assert top in s;
    }
  }

  // ---------------------------------------------------------------------
  // What goes wrong when a pass is skipped or the slot is out of range.

  /** Removing a task that was not the last one, without lowering the orders
      above it, leaves a gap. */
  lemma RemoveWithoutLowerLeavesGap<K>(m: map<K, int>, x: K)
    requires Dense(m) && x in m
    requires m[x] < |m| - 1
    ensures !Dense(m - {x})
  {
    var r := m - {x};
    assert r.Keys == m.Keys - {x};
    assert Occupied(m, |m| - 1);
    var k :| k in m && m[k] == |m| - 1;
    assert k in r && r[k] >= |r|;
  }

  /** Lowering the orders above a task that is not removed gives two tasks
      the same order. */
  lemma LowerWithoutRemoveDuplicates<K>(m: map<K, int>, x: K)
    requires Dense(m) && x in m
    requires m[x] < |m| - 1
    ensures !Dense(Lower(m, m[x]))
  {
    var r := Lower(m, m[x]);
    assert Occupied(m, m[x] + 1);
    var k :| k in m && m[k] == m[x] + 1;
    assert k != x && r[k] == r[x];
  }

  /** A slot outside 0 .. |m| cannot give a dense partition. */
  lemma OpenOutOfRange<K>(m: map<K, int>, x: K, p: int)
    requires x !in m
    requires p < 0 || p > |m|
    ensures !Dense(Open(m, x, p))
  {
    var r := Open(m, x, p);
    assert x in r && r[x] == p;
  }

  /** Running both passes at a task's own order without saving the task back
      lifts it to order+1: it either leaves 0 .. n-1 or meets the task that
      was one above it. */
  lemma PassesWithoutSaveBreakDensity<K>(m: map<K, int>, x: K)
    requires Dense(m) && x in m
    ensures !Dense(Raise(Lower(m, m[x]), m[x]))
  {
    var r := Raise(Lower(m, m[x]), m[x]);
    assert r[x] == m[x] + 1;
    if m[x] + 1 < |m| {
      assert Occupied(m, m[x] + 1);
      var k :| k in m && m[k] == m[x] + 1;
      assert k != x && r[k] == r[x];
    }
  }

  /** Closing a task's gap and opening a slot at its old order puts every
      order back where it was. */
  lemma CloseThenReopen<K>(m: map<K, int>, x: K)
    requires Dense(m) && x in m
    ensures Open(Close(m, x), x, m[x]) == m
  {
    var r := Open(Close(m, x), x, m[x]);
    assert r.Keys == m.Keys;
    forall k | k in m
      ensures r[k] == m[k]
    {
      if k != x {
        assert m[k] != m[x];
      }
    }
  }

  // ---------------------------------------------------------------------
  // The client's view of a partition: a list of task ids.

  /** The list `ids` lists the partition `m` in order: position j holds the
      task whose order is j, and nothing else is in the partition. */
  ghost predicate Represents<K>(ids: seq<K>, m: map<K, int>) {
    && |ids| == |m|
    && forall j :: 0 <= j < |ids| ==> ids[j] in m && m[ids[j]] == j
  }

  /** `list.filter((_, idx) => idx !== i)` for an index inside the list. */
  function RemoveAt<T>(s: seq<T>, i: int): (r: seq<T>)
    requires 0 <= i < |s|
    ensures |r| == |s| - 1
    ensures forall j :: 0 <= j < i ==> r[j] == s[j]
    ensures forall j :: i <= j < |r| ==> r[j] == s[j + 1]
  {
    s[..i] + s[i + 1..]
  }

  /** `[...list.slice(0, p), x, ...list.slice(p)]` for a position inside the list. */
  function InsertAt<T>(s: seq<T>, p: int, x: T): (r: seq<T>)
    requires 0 <= p <= |s|
    ensures |r| == |s| + 1
    ensures r[p] == x
    ensures forall j :: 0 <= j < p ==> r[j] == s[j]
    ensures forall j :: p < j < |r| ==> r[j] == s[j - 1]
  {
    s[..p] + [x] + s[p..]
  }

  /** A listed partition is dense. */
  lemma RepresentsDense<K>(ids: seq<K>, m: map<K, int>)
    requires Represents(ids, m)
    ensures Dense(m)
  {
    var listed := set j | 0 <= j < |ids| :: ids[j];
    DistinctCard(ids);
    assert listed <= m.Keys;
    SubsetEqualCard(listed, m.Keys);
    forall k | k in m
      ensures 0 <= m[k] < |m|
    {
      assert k in listed;
    }
    forall j | 0 <= j < |m|
      ensures Occupied(m, j)
    {
      assert ids[j] in m && m[ids[j]] == j;
    }
    forall k1, k2 | k1 in m && k2 in m && m[k1] == m[k2]
      ensures k1 == k2
    {
      assert k1 in listed && k2 in listed;
    }
  }

  /** Removing the i-th task from the client's list follows the server closing
      the gap that task leaves. */
  lemma RemoveRefinesClose<K>(ids: seq<K>, m: map<K, int>, i: int)
    requires Represents(ids, m)
    requires 0 <= i < |ids|
    ensures Represents(RemoveAt(ids, i), Close(m, ids[i]))
  {
    var r := RemoveAt(ids, i);
    var c := Close(m, ids[i]);
    forall j | 0 <= j < |r|
      ensures r[j] in c && c[r[j]] == j
    {
      if j < i {
        assert m[r[j]] == j;
      } else {
        assert m[r[j]] == j + 1;
      }
    }
  }

  /** Inserting a task at position p of the client's list follows the server
      opening a slot at order p. */
  lemma InsertRefinesOpen<K>(ids: seq<K>, m: map<K, int>, x: K, p: int)
    requires Represents(ids, m)
    requires x !in m
    requires 0 <= p <= |ids|
    ensures Represents(InsertAt(ids, p, x), Open(m, x, p))
  {
    var r := InsertAt(ids, p, x);
    var o := Open(m, x, p);
    forall j | 0 <= j < |r|
      ensures r[j] in o && o[r[j]] == j
    {
      if j < p {
        assert m[r[j]] == j;
      } else if j > p {
        assert m[r[j]] == j - 1;
      }
    }
  }

  // ---------------------------------------------------------------------
  // Cardinality helpers.

  /** A list of keys of a dense partition that names every key of it and
      whose orders strictly increase lists the partition: this is what a
      list sorted by order shows. */
  lemma SortedCoverRepresents<K>(ids: seq<K>, m: map<K, int>)
    requires Dense(m)
    requires forall i :: 0 <= i < |ids| ==> ids[i] in m
    requires forall k :: k in m ==> k in ids
    requires forall i, j :: 0 <= i < j < |ids| ==> m[ids[i]] < m[ids[j]]
    ensures Represents(ids, m)
  {
    var listed := set j | 0 <= j < |ids| :: ids[j];
    DistinctCard(ids);
    forall k | k in m
      ensures k in listed
    {
      var j :| 0 <= j < |ids| && ids[j] == k;
    }
    assert listed == m.Keys;
    forall j | 0 <= j < |ids|
      ensures m[ids[j]] == j
    {
      AtLeastIndex(ids, m, j);
      AtMostIndex(ids, m, j);
    }
  }

  /** Strictly increasing non-negative orders: the one at position j is at least j. */
  lemma {:induction false} AtLeastIndex<K>(ids: seq<K>, m: map<K, int>, j: int)
    requires Dense(m)
    requires forall i :: 0 <= i < |ids| ==> ids[i] in m
    requires forall i, i' :: 0 <= i < i' < |ids| ==> m[ids[i]] < m[ids[i']]
    requires 0 <= j < |ids|
    ensures m[ids[j]] >= j
    decreases j
  {
    if j > 0 {
      AtLeastIndex(ids, m, j - 1);
    }
  }

  /** Strictly increasing orders below |m|: the one at position j leaves room
      for the |ids| - 1 - j larger ones after it. */
  lemma {:induction false} AtMostIndex<K>(ids: seq<K>, m: map<K, int>, j: int)
    requires Dense(m)
    requires forall i :: 0 <= i < |ids| ==> ids[i] in m
    requires forall i, i' :: 0 <= i < i' < |ids| ==> m[ids[i]] < m[ids[i']]
    requires 0 <= j < |ids|
    ensures m[ids[j]] <= |m| - |ids| + j
    decreases |ids| - j
  {
    if j < |ids| - 1 {
      AtMostIndex(ids, m, j + 1);
    }
  }

  /** A dense partition is listed in only one way. */
  lemma RepresentsUnique<K>(ids1: seq<K>, ids2: seq<K>, m: map<K, int>)
    requires Dense(m)
    requires Represents(ids1, m) && Represents(ids2, m)
    ensures ids1 == ids2
  {
    forall j | 0 <= j < |ids1|
      ensures ids1[j] == ids2[j]
    {
      assert m[ids1[j]] == m[ids2[j]];
    }
  }

  /** A list without repeated elements has as many distinct elements as positions. */
  lemma {:induction false} DistinctCard<K>(ids: seq<K>)
    requires forall i, j :: 0 <= i < j < |ids| ==> ids[i] != ids[j]
    ensures |set j | 0 <= j < |ids| :: ids[j]| == |ids|
  {
    if ids != [] {
      var n := |ids| - 1;
      DistinctCard(ids[..n]);
      var front := set j | 0 <= j < n :: ids[..n][j];
      var all := set j | 0 <= j < |ids| :: ids[j];
      assert all == front + {ids[n]};
      assert ids[n] !in front;
    }
  }

  /** A subset as large as its superset is the superset. */
  lemma SubsetEqualCard<K>(a: set<K>, b: set<K>)
    requires a <= b && |a| == |b|
    ensures a == b
  {
    if a != b {
      var x :| x in b && x !in a;
      assert a <= b - {x};
      SubsetCard(a, b - {x});
    }
  }

  /** A subset is no larger than its superset. */
  lemma {:induction false} SubsetCard<K>(a: set<K>, b: set<K>)
    requires a <= b
    ensures |a| <= |b|
  {
    if a != {} {
      var y :| y in a;
      SubsetCard(a - {y}, b - {y});
    }
  }
}

=== FILE: register_form.dfy ===
/** The registration form's submit handler (src/components/auth/RegisterForm.tsx):
    two checks on the passwords, in a fixed order, before `register` is called. */
module RegisterForm {
  import opened Wrappers

  const MismatchMessage: string := "Passwords do not match"
  const TooShortMessage: string := "Password must be at least 6 characters long"
  const MinPasswordLength: nat := 6

  /** The form's inputs. */
  datatype Inputs = Inputs(name: string, email: string, password: string, confirmPassword: string)

  /** The two pieces of error state the form shows. */
  datatype Status = Status(error: string, networkError: bool)

  /** How the `register` call ends: it resolves, or it throws. */
  datatype ErrorKind = TypeError | OtherError
  datatype Outcome = Registered | Threw(kind: ErrorKind, message: string)

  /** One call of a state setter: `setError(message)` or `setNetworkError(flag)`. */
  datatype Update = SetError(message: string) | SetNetworkError(flag: bool)

  /** One submit: the setter calls the handler makes, in order, and the
      arguments `register` was called with, if it was. */
  datatype Submitted = Submitted(updates: seq<Update>, call: Option<(string, string, string)>)

  /** The state after one setter call. */
  function Step(s: Status, u: Update): (r: Status)
    ensures u.SetError? ==> r == s.(error := u.message)
    ensures u.SetNetworkError? ==> r == s.(networkError := u.flag)
  {
    match u
    case SetError(m) => s.(error := m)
    case SetNetworkError(b) => s.(networkError := b)
  }

  /** The state after a run of setter calls, applied in order. */
  function Apply(s: Status, us: seq<Update>): Status
    decreases |us|
  {
    if us == [] then s else Apply(Step(s, us[0]), us[1..])
  }

  /** The two setter calls every submit starts with. */
  const Clear: seq<Update> := [SetError(""), SetNetworkError(false)]

  /** `password.length`: JavaScript counts UTF-16 code units, so a character
      outside the Basic Multilingual Plane counts twice. */
  function Utf16Length(s: string): (n: nat)
    ensures |s| <= n <= 2 * |s|
  {
    if s == [] then 0 else (if s[0] as int > 0xFFFF then 2 else 1) + Utf16Length(s[1..])
  }

  /** `handleSubmit`.  `outcome` stands for what the `register` call does;
      it is only consulted when the call is made. */
  function Submit(f: Inputs, outcome: Outcome): (r: Submitted)
    ensures |r.updates| >= 2 && r.updates[..2] == Clear
    ensures f.password != f.confirmPassword ==> r == Submitted(Clear + [SetError(MismatchMessage)], None)
    ensures f.password == f.confirmPassword && Utf16Length(f.password) < MinPasswordLength ==>
              r == Submitted(Clear + [SetError(TooShortMessage)], None)
    ensures r.call.Some? <==> f.password == f.confirmPassword && Utf16Length(f.password) >= MinPasswordLength
    ensures r.call.Some? ==> r.call.value == (f.name, f.email, f.password)
    ensures r.call.Some? ==>
              r.updates == Clear + (if outcome == Threw(TypeError, "Failed to fetch") then [SetNetworkError(true)] else [])
  {
    if f.password != f.confirmPassword then Submitted(Clear + [SetError(MismatchMessage)], None)
    else if Utf16Length(f.password) < MinPasswordLength then Submitted(Clear + [SetError(TooShortMessage)], None)
    else
      var network := outcome.Threw? && outcome.kind == TypeError && outcome.message == "Failed to fetch";
      Submitted(Clear + (if network then [SetNetworkError(true)] else []), Some((f.name, f.email, f.password)))
  }

  /** The status the form shows after a submit, starting from `prev`. */
  function After(prev: Status, f: Inputs, outcome: Outcome): Status {
    Apply(prev, Submit(f, outcome).updates)
  }

  /** Running the two clearing calls first forgets the previous status. */
  lemma ApplyAfterClear(s: Status, rest: seq<Update>)
    ensures Apply(s, Clear + rest) == Apply(Status("", false), rest)
  {
    var us := Clear + rest;
    assert us[0] == SetError("") && us[1..] == [SetNetworkError(false)] + rest;
    assert ([SetNetworkError(false)] + rest)[1..] == rest;
  }

  /** What the form shows after a submit: the mismatch message, then the
      length message, take precedence; after the call, the network flag is
      set exactly for a TypeError "Failed to fetch" and the error is empty. */
  lemma AfterShows(prev: Status, f: Inputs, outcome: Outcome)
    ensures f.password != f.confirmPassword ==> After(prev, f, outcome) == Status(MismatchMessage, false)
    ensures f.password == f.confirmPassword && Utf16Length(f.password) < MinPasswordLength ==>
              After(prev, f, outcome) == Status(TooShortMessage, false)
    ensures Submit(f, outcome).call.Some? ==>
              After(prev, f, outcome) == Status("", outcome == Threw(TypeError, "Failed to fetch"))
  {
    var us := Submit(f, outcome).updates;
    ApplyAfterClear(prev, us[2..]);
    assert us == Clear + us[2..];
    var cleared := Status("", false);
    assert Apply(cleared, [SetError(MismatchMessage)]) == Status(MismatchMessage, false);
    assert Apply(cleared, [SetError(TooShortMessage)]) == Status(TooShortMessage, false);
    assert Apply(cleared, [SetNetworkError(true)]) == Status("", true);
  }

  /** The status left by a submit does not depend on the status before it:
      both errors are cleared first. */
  lemma SubmitClearsPrevious(prev1: Status, prev2: Status, f: Inputs, outcome: Outcome)
    ensures After(prev1, f, outcome) == After(prev2, f, outcome)
  {
    var us := Submit(f, outcome).updates;
    assert us == Clear + us[2..];
    ApplyAfterClear(prev1, us[2..]);
    ApplyAfterClear(prev2, us[2..]);
  }

  /** The mismatch check comes first: mismatched passwords report the
      mismatch even when the password is also too short. */
  lemma MismatchBeforeLength(prev: Status, f: Inputs, outcome: Outcome)
    requires f.password != f.confirmPassword && Utf16Length(f.password) < MinPasswordLength
    ensures After(prev, f, outcome).error == MismatchMessage
  {
    AfterShows(prev, f, outcome);
  }

  /** A registration that fails for any other reason (a rejected e-mail, a
      server error) leaves no visible error on the form. */
  lemma OtherFailuresAreSilent(prev: Status, f: Inputs, kind: ErrorKind, message: string)
    requires Submit(f, Registered).call.Some?
    requires kind == OtherError || message != "Failed to fetch"
    ensures After(prev, f, Threw(kind, message)) == Status("", false)
    ensures After(prev, f, Threw(kind, message)) == After(prev, f, Registered)
  {
    AfterShows(prev, f, Threw(kind, message));
    AfterShows(prev, f, Registered);
  }
}

=== FILE: task_card.dfy ===
/** The small display rules of a task card (src/components/kanban/TaskCard.tsx):
    the priority label, the badge colour, the assignee's initials and when the
    comments indicator shows. */
module CardDisplay {
  import opened Wrappers
  import opened TaskModel
  import Text

  // ---------------------------------------------------------------------
  // Priority label and badge.

  /** `priorityLabels[priority]`. */
  function PriorityLabel(p: Priority): string {
    match p
    case Low => "Low"
    case Medium => "Medium"
    case High => "High"
  }

  /** ASCII upper-casing of one letter, the only case change the labels need. */
  function Upper(c: char): char {
    if 'a' <= c <= 'z' then (c as int - 32) as char else c
  }

  /** The label is the stored priority name with its first letter capitalised,
      so labels and names determine each other. */
  lemma LabelCapitalisesName(p: Priority)
    ensures |PriorityName(p)| > 0
    ensures PriorityLabel(p) == [Upper(PriorityName(p)[0])] + PriorityName(p)[1..]
  {
  }

  /** Reading a label back: the inverse of `PriorityLabel`. */
  function ParseLabel(s: string): (r: Option<Priority>)
    ensures r.Some? ==> PriorityLabel(r.value) == s
    ensures forall p :: PriorityLabel(p) == s ==> r == Some(p)
  {
    if s == "Low" then Some(Low)
    else if s == "Medium" then Some(Medium)
    else if s == "High" then Some(High)
    else None
  }

  /** Distinct priorities get distinct labels. */
  lemma LabelInjective(p: Priority, q: Priority)
    requires PriorityLabel(p) == PriorityLabel(q)
    ensures p == q
  {
    assert ParseLabel(PriorityLabel(p)) == Some(q);
  }

  /** The three badge colour schemes. */
  datatype Tone = Red | Amber | Green

  /** The badge class chain: red for high, amber for medium, green otherwise. */
  function BadgeTone(p: Priority): (t: Tone)
    ensures t == Red <==> p == High
    ensures t == Amber <==> p == Medium
    ensures t == Green <==> p != High && p != Medium
  {
    if p == High then Red
    else if p == Medium then Amber
    else Green
  }

  /** The colour identifies the priority, so the badge and its label agree. */
  lemma BadgeMatchesLabel(p: Priority, q: Priority)
    ensures BadgeTone(p) == BadgeTone(q) <==> PriorityLabel(p) == PriorityLabel(q)
  {
    if PriorityLabel(p) == PriorityLabel(q) {
      LabelInjective(p, q);
    }
  }

  // ---------------------------------------------------------------------
  // Initials: `assignee.name.split(' ').map(n => n[0]).join('')`.

  /** `n[0]` of one segment; an empty segment gives `undefined`, which `join`
      writes as nothing. */
  function First(seg: string): (r: string)
    ensures |r| <= 1
    ensures r == [] <==> seg == []
  {
    if seg == [] then [] else [seg[0]]
  }

  /** `.map(n => n[0])`. */
  function Firsts(segs: seq<string>): (r: seq<string>)
    ensures |r| == |segs|
  {
    if segs == [] then [] else [First(segs[0])] + Firsts(segs[1..])
  }

  /** `.join('')`. */
  function Concat(parts: seq<string>): string {
    if parts == [] then [] else parts[0] + Concat(parts[1..])
  }

  /** The avatar fallback text. */
  function Initials(name: string): string {
    Concat(Firsts(Text.Split(name, ' ')))
  }

  /** Reference definition: the characters that begin a word, that is, every
      non-space character at the start of the name or right after a space.
      `afterSpace` says whether the previous character was a space (or there
      was none). */
  function WordStarts(s: string, afterSpace: bool): (r: string)
    ensures |r| <= |s|
    ensures forall k :: 0 <= k < |r| ==> r[k] != ' '
  {
    if s == [] then []
    else (if afterSpace && s[0] != ' ' then [s[0]] else []) + WordStarts(s[1..], s[0] == ' ')
  }

  /** The joint induction behind `InitialsAreWordStarts`: all segments give
      the word starts of the whole string, and the segments after the first
      give the word starts of what follows the first segment. */
  lemma {:induction false} FirstsOfSplit(s: string)
    ensures Concat(Firsts(Text.Split(s, ' '))) == WordStarts(s, true)
    ensures Concat(Firsts(Text.Split(s, ' ')[1..])) == WordStarts(s, false)
  {
    if s != [] {
      var rest := Text.Split(s[1..], ' ');
      FirstsOfSplit(s[1..]);
      var segs := Text.Split(s, ' ');
      if s[0] == ' ' {
        assert segs == [""] + rest;
        assert segs[1..] == rest;
        assert Firsts(segs) == [""] + Firsts(rest);
        assert Concat(Firsts(segs)) == "" + Concat(Firsts(rest));
      } else {
        assert segs == [[s[0]] + rest[0]] + rest[1..];
        assert segs[1..] == rest[1..];
        assert Firsts(segs) == [[s[0]]] + Firsts(rest[1..]);
        assert Concat(Firsts(segs)) == [s[0]] + Concat(Firsts(rest[1..]));
      }
    }
  }

  /** The initials are exactly the first letters of the words: one per word,
      in order, and runs of spaces add nothing. */
  lemma InitialsAreWordStarts(name: string)
    ensures Initials(name) == WordStarts(name, true)
  {
    FirstsOfSplit(name);
  }

  /** Consequences for the avatar: never longer than the name, never a space,
      and a name with no spaces gives its first character alone. */
  lemma InitialsShape(name: string)
    ensures |Initials(name)| <= |name|
    ensures forall k :: 0 <= k < |Initials(name)| ==> Initials(name)[k] != ' '
    ensures name != [] && (forall k :: 0 <= k < |name| ==> name[k] != ' ') ==> Initials(name) == [name[0]]
  {
    InitialsAreWordStarts(name);
    if name != [] && (forall k :: 0 <= k < |name| ==> name[k] != ' ') {
      NoSpaceNoStarts(name[1..]);
    }
  }

  /** Without spaces no later character starts a word. */
  lemma {:induction false} NoSpaceNoStarts(s: string)
    requires forall k :: 0 <= k < |s| ==> s[k] != ' '
    ensures WordStarts(s, false) == []
  {
    if s != [] {
      NoSpaceNoStarts(s[1..]);
    }
  }

  // ---------------------------------------------------------------------
  // Comments indicator.

  /** `commentsCount = 0` as a parameter default, then `commentsCount > 0`. */
  predicate ShowsComments(commentsCount: Option<int>) {
    commentsCount.GetOr(0) > 0
  }

  /** The indicator shows exactly for a positive count that is present; an
      absent count behaves as 0 and hides it. */
  lemma ShowsCommentsIff(commentsCount: Option<int>)
    ensures ShowsComments(commentsCount) <==> commentsCount.Some? && commentsCount.value > 0
    ensures ShowsComments(None) == ShowsComments(Some(DefaultCommentsCount))
  {
  }
}

=== FILE: task_form.dfy ===
/** The task dialog (src/components/kanban/TaskModal.tsx): the form state it
    starts from and the record `handleSubmit` hands to `onSave`. */
module TaskForm {
  import opened Wrappers
  import opened Ids
  import opened TaskModel
  import Text
  import Board

  /** The `task` prop: a partial card, every field possibly unset. */
  datatype Partial = Partial(
    id: Option<TaskId>,
    title: Option<string>,
    description: Option<string>,
    priority: Option<Priority>,
    dueDate: Option<int>,
    assignee: Option<Assignee>,
    commentsCount: Option<int>)

  /** The editable fields the dialog keeps in state. */
  datatype Fields = Fields(title: string, description: string, priority: Priority, dueDate: Option<int>)

  /** `s || d` for an optional string: unset and empty both give `d`. */
  function OrText(s: Option<string>, d: string): (r: string)
    ensures s.Some? && s.value != "" ==> r == s.value
    ensures s.None? || s.value == "" ==> r == d
  {
    if s.Some? && s.value != "" then s.value else d
  }

  /** `n || 0` for an optional count: unset and 0 both give 0. */
  function OrZero(n: Option<int>): (r: int)
    ensures n.Some? ==> r == n.value
    ensures n.None? ==> r == 0
  {
    if n.Some? && n.value != 0 then n.value else 0
  }

  /** The state on mount, and the state the effect sets when a new non-null
      `task` arrives: title and description default to empty, priority to
      medium, the due date is taken as is.  With no task every field takes
      its default on mount; the effect does nothing for a null `task`, which
      the board never passes (it opens the dialog with `{}` or a card). */
  function Initial(task: Option<Partial>): (f: Fields)
    ensures task.None? ==> f == Fields("", "", DefaultPriority, None)
    ensures task.Some? ==>
      && f.title == task.value.title.GetOr("")
      && f.description == task.value.description.GetOr("")
      && f.priority == task.value.priority.GetOr(DefaultPriority)
      && f.dueDate == task.value.dueDate
  {
    match task
    case None => Fields("", "", Medium, None)
    case Some(t) => Fields(OrText(t.title, ""), OrText(t.description, ""), t.priority.GetOr(Medium), t.dueDate)
  }

  /** `handleSubmit`: nothing when the title is blank after trimming;
      otherwise the card to save, with the title as typed (not trimmed). */
  function Submit(task: Option<Partial>, f: Fields): (r: Option<Board.CardTask>)
    ensures r.None? <==> Text.Blank(f.title)
    ensures r.Some? ==>
      && r.value.title == f.title
      && r.value.description == Some(f.description)
      && r.value.priority == f.priority
      && r.value.dueDate == f.dueDate
      && r.value.id == (if task.Some? then OrText(task.value.id, "") else "")
      && r.value.assignee == (if task.Some? then task.value.assignee else None)
      && r.value.commentsCount == Some(if task.Some? then OrZero(task.value.commentsCount) else 0)
  {
    if Text.Blank(f.title) then None
    else
      var t := task.GetOr(Partial(None, None, None, None, None, None, None));
      Some(Board.CardTask(OrText(t.id, ""), f.title, Some(f.description), f.priority, f.dueDate, t.assignee, Some(OrZero(t.commentsCount))))
  }

  /** A new task (no `task` prop) is saved with the empty id, no assignee and
      no comments, whatever was typed, as long as the title is not blank. */
  lemma NewTaskDefaults(f: Fields)
    requires !Text.Blank(f.title)
    ensures Submit(None, f).Some?
    ensures var c := Submit(None, f).value;
            c.id == "" && c.assignee.None? && c.commentsCount == Some(DefaultCommentsCount)
  {
  }

  /** The partial record the board passes when a card is edited. */
  function FromCard(c: Board.CardTask): (p: Partial)
    ensures p.id == Some(c.id) && p.title == Some(c.title) && p.assignee == c.assignee
  {
    Partial(Some(c.id), Some(c.title), c.description, Some(c.priority), c.dueDate, c.assignee, c.commentsCount)
  }

  /** Opening a card and saving it untouched gives the same card back, when
      its title is not blank and its description and count are present. */
  lemma EditRoundTrip(c: Board.CardTask)
    requires !Text.Blank(c.title) && c.description.Some? && c.commentsCount.Some?
    ensures Submit(Some(FromCard(c)), Initial(Some(FromCard(c)))) == Some(c)
  {
    var f := Initial(Some(FromCard(c)));
    assert f.title == c.title;
    assert f.description == c.description.value;
  }

  /** Saving twice is saving once: submitting the fields of a saved card
      again, for that card, gives the same card. */
  lemma SubmitIdempotent(task: Option<Partial>, f: Fields)
    requires Submit(task, f).Some?
    ensures var c := Submit(task, f).value;
            Submit(Some(FromCard(c)), Fields(c.title, c.description.value, c.priority, c.dueDate)) == Some(c)
  {
  }
}

=== FILE: task_routes.dfy ===
/** The task routes (backend/routes/tasks.js) as pure transitions on the task
    collection.  Each handler takes the collection and the request and returns
    the new collection with the reply.  Requests are scoped by the caller's id
    (`createdBy`); a partition is one caller's tasks in one column. */
module TaskRoutes {
  import opened Wrappers
  import opened Ids
  import opened TaskModel
  import Text
  import Ordering

  /** The task collection, keyed by `_id`. */
  type Db = map<TaskId, Task>

  /** `User.findById`: user id to display name. */
  type Users = map<UserId, string>

  /** The `assignee` object of a request body; only its `id` is read. */
  datatype AssigneeRef = AssigneeRef(id: string)

  datatype CreateRequest = CreateRequest(
    title: Option<string>,
    description: Field<string>,
    priority: Option<string>,
    dueDate: Field<int>,
    columnId: string,
    assignee: Field<AssigneeRef>)

  datatype UpdateRequest = UpdateRequest(
    title: Option<string>,
    description: Field<string>,
    priority: Option<string>,
    dueDate: Field<int>,
    assignee: Field<AssigneeRef>)

  datatype MoveRequest = MoveRequest(sourceColumn: string, destinationColumn: string, newIndex: int)

  /** A JavaScript-truthy string: present and not empty. */
  predicate Truthy(s: Option<string>) {
    s.Some? && s.value != ""
  }

  /** Every document is stored under its own id and passed validation when saved. */
  ghost predicate WellFormed(db: Db) {
    forall k :: k in db ==> db[k].id == k && Valid(db[k])
  }

  /** `findOne({ _id: id, createdBy: caller })` finds a task. */
  predicate Owns(db: Db, caller: UserId, id: TaskId) {
    id in db && db[id].createdBy == caller
  }

  /** The filter `{ createdBy: u, columnId: col }` of the queries; `col` is the
      string from the request, compared with the stored column name. */
  predicate InColumn(t: Task, u: UserId, col: string) {
    t.createdBy == u && ColumnName(t.columnId) == col
  }

  /** The orders of one partition. */
  function Orders(db: Db, u: UserId, c: Column): (m: map<TaskId, int>)
    ensures forall k :: k in m <==> k in db && db[k].createdBy == u && db[k].columnId == c
    ensures forall k :: k in m ==> m[k] == db[k].order
  {
    map k | k in db && db[k].createdBy == u && db[k].columnId == c :: db[k].order
  }

  /** Invariant I1: every partition's orders are exactly 0 .. n-1. */
  ghost predicate AllDense(db: Db) {
    forall u, c :: Ordering.Dense(Orders(db, u, c))
  }

  /** The invariant the handlers maintain. */
  ghost predicate Inv(db: Db) {
    WellFormed(db) && AllDense(db)
  }

  // ---------------------------------------------------------------------
  // The two `updateMany` passes.

  /** `updateMany({ createdBy: u, columnId: col, order: { $gt: above } }, { $inc: { order: -1 } })` */
  function ShiftDown(db: Db, u: UserId, col: string, above: int): (r: Db)
    ensures r.Keys == db.Keys
    ensures forall k :: k in db ==> r[k] == db[k].(order := r[k].order)
  {
    map k | k in db :: if InColumn(db[k], u, col) && db[k].order > above then db[k].(order := db[k].order - 1) else db[k]
  }

  /** `updateMany({ createdBy: u, columnId: col, order: { $gte: from } }, { $inc: { order: 1 } })` */
  function ShiftUp(db: Db, u: UserId, col: string, from: int): (r: Db)
    ensures r.Keys == db.Keys
    ensures forall k :: k in db ==> r[k] == db[k].(order := r[k].order)
  {
    map k | k in db :: if InColumn(db[k], u, col) && db[k].order >= from then db[k].(order := db[k].order + 1) else db[k]
  }

  /** The decrement pass lowers the orders of the partition it names and of no other. */
  lemma ShiftDownOrders(db: Db, u: UserId, col: string, above: int, u': UserId, c': Column)
    ensures Orders(ShiftDown(db, u, col, above), u', c') ==
            if u' == u && ColumnName(c') == col then Ordering.Lower(Orders(db, u', c'), above)
            else Orders(db, u', c')
  {
    if u' == u && ColumnName(c') == col {
      ShiftDownNamed(db, u, col, above, c');
    } else {
      ShiftDownOther(db, u, col, above, u', c');
    }
  }

  /** On the partition it names, the decrement pass is `Lower`. */
  lemma ShiftDownNamed(db: Db, u: UserId, col: string, above: int, c: Column)
    requires ColumnName(c) == col
    ensures Orders(ShiftDown(db, u, col, above), u, c) == Ordering.Lower(Orders(db, u, c), above)
  {
    var after := Orders(ShiftDown(db, u, col, above), u, c);
    var m := Orders(db, u, c);
    forall k | k in db
      ensures db[k].createdBy == u && db[k].columnId == c <==> InColumn(db[k], u, col)
    {
      ColumnNameInjective(db[k].columnId, c);
    }
    assert after.Keys == m.Keys;
  }

  /** Every other partition is left as it was by the decrement pass. */
  lemma ShiftDownOther(db: Db, u: UserId, col: string, above: int, u': UserId, c': Column)
    requires u' != u || ColumnName(c') != col
    ensures Orders(ShiftDown(db, u, col, above), u', c') == Orders(db, u', c')
  {
    var after := Orders(ShiftDown(db, u, col, above), u', c');
    var m := Orders(db, u', c');
    assert after.Keys == m.Keys;
  }

  /** The increment pass raises the orders of the partition it names and of no other. */
  lemma ShiftUpOrders(db: Db, u: UserId, col: string, from: int, u': UserId, c': Column)
    ensures Orders(ShiftUp(db, u, col, from), u', c') ==
            if u' == u && ColumnName(c') == col then Ordering.Raise(Orders(db, u', c'), from)
            else Orders(db, u', c')
  {
    if u' == u && ColumnName(c') == col {
      ShiftUpNamed(db, u, col, from, c');
    } else {
      ShiftUpOther(db, u, col, from, u', c');
    }
  }

  /** On the partition it names, the increment pass is `Raise`. */
  lemma ShiftUpNamed(db: Db, u: UserId, col: string, from: int, c: Column)
    requires ColumnName(c) == col
    ensures Orders(ShiftUp(db, u, col, from), u, c) == Ordering.Raise(Orders(db, u, c), from)
  {
    var after := Orders(ShiftUp(db, u, col, from), u, c);
    var m := Orders(db, u, c);
    forall k | k in db
      ensures db[k].createdBy == u && db[k].columnId == c <==> InColumn(db[k], u, col)
    {
      ColumnNameInjective(db[k].columnId, c);
    }
    assert after.Keys == m.Keys;
  }

  /** Every other partition is left as it was by the increment pass. */
  lemma ShiftUpOther(db: Db, u: UserId, col: string, from: int, u': UserId, c': Column)
    requires u' != u || ColumnName(c') != col
    ensures Orders(ShiftUp(db, u, col, from), u', c') == Orders(db, u', c')
  {
    var after := Orders(ShiftUp(db, u, col, from), u', c');
    var m := Orders(db, u', c');
    assert after.Keys == m.Keys;
  }


  /** Removing a document removes it from its partition only. */
  lemma RemoveOrders(db: Db, id: TaskId, u: UserId, c: Column)
    ensures Orders(db - {id}, u, c) == Orders(db, u, c) - {id}
  {
  }

  /** Saving a document moves it into the partition it now names. */
  lemma SaveOrders(db: Db, t: Task, u: UserId, c: Column)
    ensures Orders(db[t.id := t], u, c) ==
            if t.createdBy == u && t.columnId == c then (Orders(db, u, c) - {t.id})[t.id := t.order]
            else Orders(db, u, c) - {t.id}
  {
  }

  // ---------------------------------------------------------------------
  // GET /  (list)

  /** Non-decreasing by `order`: the `.sort({ order: 1 })` of the list route. */
  predicate SortedByOrder(s: seq<Task>) {
    forall i, j :: 0 <= i < j < |s| ==> s[i].order <= s[j].order
  }

  /** No document appears twice in a listing. */
  predicate DistinctIds(s: seq<Task>) {
    forall i, j :: 0 <= i < j < |s| ==> s[i].id != s[j].id
  }

  /** What the list route answers for `caller`: sorted by order, each task
      once, only the caller's tasks, and every one of them. */
  predicate Listing(db: Db, caller: UserId, r: seq<Task>) {
    && SortedByOrder(r)
    && DistinctIds(r)
    && (forall t :: t in r ==> t in db.Values && t.createdBy == caller)
    && (forall k :: k in db && db[k].createdBy == caller ==> db[k] in r)
  }

  /** The number of leading tasks whose order is not greater than `t`'s. */
  function InsertPos(s: seq<Task>, t: Task): (p: nat)
    ensures p <= |s|
    ensures forall i :: 0 <= i < p ==> s[i].order <= t.order
    ensures p < |s| ==> s[p].order > t.order
  {
    if s == [] || s[0].order > t.order then 0 else 1 + InsertPos(s[1..], t)
  }

  /** Inserts `t` after every task whose order is not greater than its own:
      the result is sorted, one longer, and holds exactly the tasks of `s`
      and `t`. */
  function InsertSorted(s: seq<Task>, t: Task): (r: seq<Task>)
    requires SortedByOrder(s)
    ensures SortedByOrder(r)
    ensures |r| == |s| + 1
    ensures forall x :: x in r <==> x in s || x == t
    ensures DistinctIds(s) && (forall x :: x in s ==> x.id != t.id) ==> DistinctIds(r)
  {
    var p := InsertPos(s, t);
    InsertAtPos(s, t, p);
    InsertKeepsDistinct(s, t, p);
    s[..p] + [t] + s[p..]
  }

  /** Placing `t` at a position that splits `s` into the tasks not above it
      and the tasks above it keeps the sequence sorted and adds only `t`. */
  lemma InsertAtPos(s: seq<Task>, t: Task, p: nat)
    requires SortedByOrder(s) && p <= |s|
    requires forall i :: 0 <= i < p ==> s[i].order <= t.order
    requires p < |s| ==> s[p].order > t.order
    ensures SortedByOrder(s[..p] + [t] + s[p..])
    ensures forall x :: x in s[..p] + [t] + s[p..] <==> x in s || x == t
  {
    var r := s[..p] + [t] + s[p..];
    assert forall i :: 0 <= i < |r| ==> r[i] == if i < p then s[i] else if i == p then t else s[i - 1];
    forall i, j | 0 <= i < j < |r|
      ensures r[i].order <= r[j].order
    {
      if i == p {
        assert s[p].order <= s[j - 1].order;
      }
    }
    assert s == s[..p] + s[p..];
  }

  /** Placing a task whose id is new anywhere in a listing keeps ids distinct. */
  lemma InsertKeepsDistinct(s: seq<Task>, t: Task, p: nat)
    requires p <= |s|
    ensures DistinctIds(s) && (forall x :: x in s ==> x.id != t.id) ==> DistinctIds(s[..p] + [t] + s[p..])
  {
    if DistinctIds(s) && (forall x :: x in s ==> x.id != t.id) {
      var r := s[..p] + [t] + s[p..];
      assert forall i :: 0 <= i < |r| ==> r[i] == if i < p then s[i] else if i == p then t else s[i - 1];
      forall i, j | 0 <= i < j < |r|
        ensures r[i].id != r[j].id
      {
        if i == p {
          assert s[j - 1] in s;
        } else if j == p {
          assert s[i] in s;
        }
      }
    }
  }

  /** `Task.find({ createdBy: caller }).sort({ order: 1 })`: every task of the
      caller, once, in non-decreasing order. */
  method ListTasks(db: Db, caller: UserId) returns (r: seq<Task>)
    requires WellFormed(db)
    ensures Listing(db, caller, r)
    ensures |r| == |set k | k in db && db[k].createdBy == caller|
  {
    var all := set k | k in db && db[k].createdBy == caller;
    var todo := all;
    r := [];
    while todo != {}
      invariant ListedSoFar(db, caller, all, todo, r)
      decreases |todo|
    {
      if forall k :: k !in todo {
        assert false;
      }
      var k :| k in todo;
      ListStep(db, caller, all, todo, r, k);
      r := InsertSorted(r, db[k]);
      todo := todo - {k};
    }
  }

  /** The loop invariant of `ListTasks`: `r` is sorted, holds only the
      caller's tasks, and holds each task whose key has been taken from
      `todo`, once. */
  ghost predicate ListedSoFar(db: Db, caller: UserId, all: set<TaskId>, todo: set<TaskId>, r: seq<Task>) {
    && todo <= all
    && SortedByOrder(r)
    && DistinctIds(r)
    && (forall t :: t in r ==> t in db.Values && t.createdBy == caller && t.id in all - todo)
    && (forall k :: k in all - todo ==> k in db && db[k] in r)
    && |r| == |all - todo|
  }

  /** One step of `ListTasks` keeps its invariant. */
  lemma ListStep(db: Db, caller: UserId, all: set<TaskId>, todo: set<TaskId>, r: seq<Task>, k: TaskId)
    requires WellFormed(db)
    requires ListedSoFar(db, caller, all, todo, r)
    requires all == set j | j in db && db[j].createdBy == caller
    requires k in todo
    ensures ListedSoFar(db, caller, all, todo - {k}, InsertSorted(r, db[k]))
  {
    var r' := InsertSorted(r, db[k]);
    assert all - (todo - {k}) == (all - todo) + {k};
    assert db[k].id == k;
    assert forall t :: t in r' ==> t in db.Values && t.createdBy == caller && t.id in all - (todo - {k});
  }

  // ---------------------------------------------------------------------
  // POST /  (create)

  /** The order a new task receives: 0 in an empty column, otherwise one more
      than the highest order found (`findOne(...).sort({ order: -1 })`). */
  function NextOrder(db: Db, u: UserId, col: string): (n: int)
    ensures (forall k :: k in db ==> !InColumn(db[k], u, col)) ==> n == 0
    ensures (exists k :: k in db && InColumn(db[k], u, col)) ==>
              && (exists k :: k in db && InColumn(db[k], u, col) && db[k].order == n - 1)
              && (forall k :: k in db && InColumn(db[k], u, col) ==> db[k].order < n)
  {
    var orders := set k | k in db && InColumn(db[k], u, col) :: db[k].order;
    assert forall k :: k in db && InColumn(db[k], u, col) ==> db[k].order in orders;
    if orders == {} then 0 else Ordering.MaxOf(orders) + 1
  }

  /** `assignee && assignee.id` with `User.findById`: the cached assignee, or
      `None` when no id is given or no such user exists. */
  function LookupAssignee(users: Users, a: Field<AssigneeRef>): (r: Option<Assignee>)
    ensures r.Some? <==> a.Val? && a.value.id != "" && a.value.id in users
    ensures r.Some? ==> r.value == Assignee(a.value.id, users[a.value.id])
  {
    if a.Val? && a.value.id != "" && a.value.id in users then Some(Assignee(a.value.id, users[a.value.id]))
    else None
  }

  /** The create handler, given the `workspace` value the new document receives. */
  function CreateWith(db: Db, users: Users, caller: UserId, req: CreateRequest, newId: TaskId, workspace: Option<WorkspaceId>): (r: (Db, Reply<Task>))
    ensures r.1.Created? || (r.1.ServerError? && r.0 == db)
    ensures r.1.Created? <==>
      && newId !in db
      && Build(newId, CreateDraft(db, users, caller, req, workspace)).Some?
    ensures r.1.Created? ==> r.0 == db[newId := r.1.value] && r.1.value.id == newId
  {
    match Build(newId, CreateDraft(db, users, caller, req, workspace))
    case None => (db, ServerError)
    case Some(t) => if newId in db then (db, ServerError) else (db[newId := t], Created(t))
  }

  /** The values the create handler passes to `new Task({...})`. */
  function CreateDraft(db: Db, users: Users, caller: UserId, req: CreateRequest, workspace: Option<WorkspaceId>): TaskDraft {
    TaskDraft(req.title, req.description.ToOption(), req.priority, req.dueDate.ToOption(),
              Some(req.columnId), Some(NextOrder(db, caller, req.columnId)),
              LookupAssignee(users, req.assignee), caller, workspace)
  }

  /** POST / as written: the new document gets no `workspace`, which the
      schema requires, so every create fails validation and stores nothing. */
  function CreateTaskAsWritten(db: Db, users: Users, caller: UserId, req: CreateRequest, newId: TaskId): (r: (Db, Reply<Task>))
    ensures r == (db, ServerError)
  {
    CreateWith(db, users, caller, req, newId, None)
  }

  /** POST /, with the task stored in `workspace`: appends the task to the end
      of the caller's column. */
  function CreateTask(db: Db, users: Users, caller: UserId, req: CreateRequest, newId: TaskId, workspace: WorkspaceId): (r: (Db, Reply<Task>))
    ensures r.1.Created? || (r.1.ServerError? && r.0 == db)
    ensures r.1.Created? <==>
      && newId !in db
      && Truthy(req.title) && !Text.Blank(req.title.value)
      && (req.priority.Some? ==> ParsePriority(req.priority.value).Some?)
      && ParseColumn(req.columnId).Some?
    ensures r.1.Created? ==>
      var t := r.1.value;
      && r.0 == db[newId := t]
      && t.id == newId && t.createdBy == caller && t.workspace == Some(workspace)
      && ColumnName(t.columnId) == req.columnId
      && t.title == Text.Trim(req.title.value)
      && t.order == NextOrder(db, caller, req.columnId)
      && t.assignee == LookupAssignee(users, req.assignee)
      && t.commentsCount == 0
  {
    CreateWith(db, users, caller, req, newId, Some(workspace))
  }

  /** In a dense partition the new task's order is the partition's size, so a
      create appends at the end and keeps every partition dense. */
  lemma CreatePreservesInv(db: Db, users: Users, caller: UserId, req: CreateRequest, newId: TaskId, workspace: WorkspaceId)
    requires Inv(db)
    ensures var r := CreateTask(db, users, caller, req, newId, workspace);
            && Inv(r.0)
            && (r.1.Created? ==> r.1.value.order == |Orders(db, caller, r.1.value.columnId)|)
  {
    var r := CreateTask(db, users, caller, req, newId, workspace);
    if r.1.Created? {
      var t := r.1.value;
      CreateOrderIsSize(db, caller, t.columnId);
      CreatedIsValid(db, users, caller, req, newId, workspace);
      SaveKeepsWellFormed(db, t);
      forall u, c
        ensures Ordering.Dense(Orders(r.0, u, c))
      {
        AppendKeepsDense(db, t, u, c);
      }
    }
  }

  /** The document a successful create stores passed validation. */
  lemma CreatedIsValid(db: Db, users: Users, caller: UserId, req: CreateRequest, newId: TaskId, workspace: WorkspaceId)
    ensures var r := CreateTask(db, users, caller, req, newId, workspace);
            r.1.Created? ==> Valid(r.1.value)
  {
    if CreateTask(db, users, caller, req, newId, workspace).1.Created? {
      var t := Build(newId, CreateDraft(db, users, caller, req, Some(workspace)));
      assert t.Some?;
    }
  }

  /** Storing a new task at the end of its partition keeps every partition dense. */
  lemma AppendKeepsDense(db: Db, t: Task, u: UserId, c: Column)
    requires AllDense(db)
    requires t.id !in db
    requires t.order == |Orders(db, t.createdBy, t.columnId)|
    ensures Ordering.Dense(Orders(db[t.id := t], u, c))
  {
    var m := Orders(db, u, c);
    assert Ordering.Dense(m);
    SaveOrders(db, t, u, c);
    Ordering.WithoutAbsent(m, t.id);
    if u == t.createdBy && c == t.columnId {
      Ordering.AppendIsOpenAtEnd(m, t.id);
      Ordering.OpenDense(m, t.id, |m|);
    }
  }

  /** In a dense partition, "highest order + 1, or 0" is the number of tasks. */
  lemma CreateOrderIsSize(db: Db, u: UserId, c: Column)
    requires Ordering.Dense(Orders(db, u, c))
    ensures NextOrder(db, u, ColumnName(c)) == |Orders(db, u, c)|
  {
    var m := Orders(db, u, c);
    forall k | k in db
      ensures InColumn(db[k], u, ColumnName(c)) <==> k in m
    {
      ColumnNameInjective(db[k].columnId, c);
    }
    if |m| > 0 {
      Ordering.DenseMax(m);
      var k :| k in m && m[k] == |m| - 1;
      assert k in db && InColumn(db[k], u, ColumnName(c));
    }
  }

  // ---------------------------------------------------------------------
  // PUT /:id  (update)

  /** PUT /:id: applies the field rules to the caller's task and saves it. */
  function UpdateTask(db: Db, users: Users, caller: UserId, id: TaskId, req: UpdateRequest): (r: (Db, Reply<Task>))
    ensures r.1.NotFound? <==> !Owns(db, caller, id)
    ensures r.1.NotFound? ==> r.0 == db && r.1.message == "Task not found"
    ensures r.1.Ok? || r.1.NotFound? || (r.1.ServerError? && r.0 == db)
    ensures r.1.Ok? ==> r.0 == db[id := r.1.value] && ApplyUpdate(db[id], users, req) == Some(r.1.value)
  {
    if !Owns(db, caller, id) then (db, NotFound("Task not found"))
    else
      match ApplyUpdate(db[id], users, req)
      case None => (db, ServerError)
      case Some(t') => (db[id := t'], Ok(t'))
  }

  /** The field rules of PUT /:id: title and priority change only when truthy,
      description and due date whenever present (an explicit `null` clears
      them), the assignee when an id is given and found (an explicit `null`
      clears it).  `None` when the saved document fails validation: a title
      that is blank after trimming, an unknown priority, a missing workspace. */
  function ApplyUpdate(t: Task, users: Users, req: UpdateRequest): (r: Option<Task>)
    ensures r.Some? ==> Valid(r.value)
    ensures r.Some? ==> r.value.id == t.id && r.value.createdBy == t.createdBy && r.value.workspace == t.workspace
    ensures r.Some? ==> r.value.columnId == t.columnId && r.value.order == t.order && r.value.commentsCount == t.commentsCount
    ensures r.Some? ==> r.value.title == UpdatedTitle(t.title, req.title)
    ensures r.Some? ==> r.value.description == Patch(t.description, TrimmedField(req.description))
    ensures r.Some? ==> r.value.dueDate == Patch(t.dueDate, req.dueDate)
    ensures r.Some? ==> r.value.assignee == UpdatedAssignee(users, t.assignee, req.assignee)
    ensures r.Some? && Truthy(req.priority) ==> PriorityName(r.value.priority) == req.priority.value
    ensures r.Some? && !Truthy(req.priority) ==> r.value.priority == t.priority
    ensures Truthy(req.priority) && ParsePriority(req.priority.value).None? ==> r.None?
  {
    var priority := if Truthy(req.priority) then ParsePriority(req.priority.value) else Some(t.priority);
    if priority.None? then None
    else
      var t' := Task(t.id, UpdatedTitle(t.title, req.title), Patch(t.description, TrimmedField(req.description)),
                     priority.value, Patch(t.dueDate, req.dueDate), t.columnId, t.order,
                     UpdatedAssignee(users, t.assignee, req.assignee), t.commentsCount, t.createdBy, t.workspace);
      if !Valid(t') then None else Some(t')
  }

  /** A truthy title replaces the stored one, trimmed; otherwise it is kept. */
  function UpdatedTitle(current: string, title: Option<string>): (r: string)
    ensures Truthy(title) ==> r == Text.Trim(title.value)
    ensures !Truthy(title) ==> r == current
    ensures Truthy(title) ==> Text.Trimmed(r) && (r == "" <==> Text.Blank(title.value))
  {
    if Truthy(title) then Text.Trim(title.value) else current
  }

  /** `!== undefined` assignment of an optional path: absent keeps, `null` clears. */
  function Patch<T>(current: Option<T>, f: Field<T>): (r: Option<T>)
    ensures f.Undefined? ==> r == current
    ensures f.Null? ==> r == None
    ensures f.Val? ==> r == Some(f.value)
  {
    match f
    case Undefined => current
    case Null => None
    case Val(v) => Some(v)
  }

  /** The schema's `trim: true` applied to a string path being set. */
  function TrimmedField(f: Field<string>): (r: Field<string>)
    ensures r.Undefined? <==> f.Undefined?
    ensures r.Null? <==> f.Null?
    ensures f.Val? ==> r == Val(Text.Trim(f.value)) && Text.Trimmed(r.value)
  {
    match f
    case Val(s) => Val(Text.Trim(s))
    case _ => f
  }

  /** The assignee after an update: a found user replaces it, an explicit
      `null` clears it, anything else keeps it. */
  function UpdatedAssignee(users: Users, current: Option<Assignee>, a: Field<AssigneeRef>): (r: Option<Assignee>)
    ensures LookupAssignee(users, a).Some? ==> r == LookupAssignee(users, a)
    ensures LookupAssignee(users, a).None? && a.Null? ==> r == None
    ensures LookupAssignee(users, a).None? && !a.Null? ==> r == current
  {
    var found := LookupAssignee(users, a);
    if found.Some? then found else if a.Null? then None else current
  }

  /** The update route succeeds exactly when the resulting document is
      valid: a blank title is refused only when the request sends one. */
  lemma ApplyUpdateSucceeds(t: Task, users: Users, req: UpdateRequest)
    requires Valid(t)
    ensures ApplyUpdate(t, users, req).Some? <==>
              && (Truthy(req.title) ==> !Text.Blank(req.title.value))
              && (Truthy(req.priority) ==> ParsePriority(req.priority.value).Some?)
  {
    var priority := if Truthy(req.priority) then ParsePriority(req.priority.value) else Some(t.priority);
    if priority.Some? {
      var title := UpdatedTitle(t.title, req.title);
      var description := Patch(t.description, TrimmedField(req.description));
      assert Text.Trimmed(title) && (title != "" <==> (Truthy(req.title) ==> !Text.Blank(req.title.value)));
      assert description.Some? ==> Text.Trimmed(description.value);
    }
  }

  /** Sending the same update twice has the effect of sending it once. */
  lemma ApplyUpdateIdempotent(t: Task, users: Users, req: UpdateRequest)
    requires ApplyUpdate(t, users, req).Some?
    ensures ApplyUpdate(ApplyUpdate(t, users, req).value, users, req) == ApplyUpdate(t, users, req)
  {
    var priority := if Truthy(req.priority) then ParsePriority(req.priority.value) else Some(t.priority);
    if priority.Some? {
      var title := UpdatedTitle(t.title, req.title);
      var description := Patch(t.description, TrimmedField(req.description));
      assert Text.Trimmed(title) && (title != "" <==> (Truthy(req.title) ==> !Text.Blank(req.title.value)));
      assert description.Some? ==> Text.Trimmed(description.value);
    }
  }

  /** An empty body changes nothing in a valid task. */
  lemma EmptyUpdateIsIdentity(t: Task, users: Users)
    requires Valid(t)
    ensures ApplyUpdate(t, users, UpdateRequest(None, Undefined, None, Undefined, Undefined)) == Some(t)
  {
  }

  /** An update never moves a task: every partition keeps its orders, so the
      invariant is kept. */
  lemma UpdatePreservesInv(db: Db, users: Users, caller: UserId, id: TaskId, req: UpdateRequest)
    requires Inv(db)
    ensures var r := UpdateTask(db, users, caller, id, req);
            Inv(r.0) && forall u, c :: Orders(r.0, u, c) == Orders(db, u, c)
  {
    var r := UpdateTask(db, users, caller, id, req);
    if r.1.Ok? {
      var t' := r.1.value;
      SaveInPlace(db, t');
      SaveKeepsWellFormed(db, t');
      forall u, c
        ensures Ordering.Dense(Orders(r.0, u, c))
      {
        assert Orders(r.0, u, c) == Orders(db, u, c);
      }
    }
  }

  /** Saving a valid document under its own id keeps the collection well formed. */
  lemma SaveKeepsWellFormed(db: Db, t: Task)
    requires WellFormed(db) && Valid(t)
    ensures WellFormed(db[t.id := t])
  {
  }

  /** Saving a document with its partition and order unchanged changes no partition. */
  lemma SaveInPlace(db: Db, t: Task)
    requires t.id in db
    requires t.createdBy == db[t.id].createdBy && t.columnId == db[t.id].columnId && t.order == db[t.id].order
    ensures forall u, c :: Orders(db[t.id := t], u, c) == Orders(db, u, c)
  {
    forall u, c
      ensures Orders(db[t.id := t], u, c) == Orders(db, u, c)
    {
      var a := Orders(db[t.id := t], u, c);
      var b := Orders(db, u, c);
      assert a.Keys == b.Keys;
      assert forall k :: k in a ==> a[k] == b[k];
    }
  }

  // ---------------------------------------------------------------------
  // DELETE /:id

  /** DELETE /:id: removes the caller's task, then lowers by one the order of
      every task of the caller's same column that was above it. */
  function DeleteTask(db: Db, caller: UserId, id: TaskId): (r: (Db, Reply<string>))
    ensures r.1.NotFound? <==> !Owns(db, caller, id)
    ensures r.1.NotFound? ==> r.0 == db && r.1.message == "Task not found"
    ensures r.1.Ok? || r.1.NotFound?
    ensures r.1.Ok? ==>
      && r.1.value == "Task deleted"
      && r.0.Keys == db.Keys - {id}
      && forall k :: k in r.0 ==>
           r.0[k] == if db[k].createdBy == caller && db[k].columnId == db[id].columnId && db[k].order > db[id].order
                     then db[k].(order := db[k].order - 1) else db[k]
  {
    if !Owns(db, caller, id) then (db, NotFound("Task not found"))
    else
      var t := db[id];
      (ShiftDown(db - {id}, caller, ColumnName(t.columnId), t.order), Ok("Task deleted"))
  }

  /** A delete closes the gap in the deleted task's partition and leaves every
      other partition as it was. */
  lemma DeleteOrders(db: Db, caller: UserId, id: TaskId, u: UserId, c: Column)
    requires Owns(db, caller, id)
    ensures Orders(DeleteTask(db, caller, id).0, u, c) ==
            if u == caller && c == db[id].columnId then Ordering.Close(Orders(db, u, c), id)
            else Orders(db, u, c)
  {
    var t := db[id];
    ShiftDownOrders(db - {id}, caller, ColumnName(t.columnId), t.order, u, c);
    RemoveOrders(db, id, u, c);
    ColumnNameInjective(c, t.columnId);
  }

  /** A delete keeps every partition dense. */
  lemma DeletePreservesInv(db: Db, caller: UserId, id: TaskId)
    requires Inv(db)
    ensures Inv(DeleteTask(db, caller, id).0)
  {
    if Owns(db, caller, id) {
      var r := DeleteTask(db, caller, id).0;
      forall u, c
        ensures Ordering.Dense(Orders(r, u, c))
      {
        DeleteOrders(db, caller, id, u, c);
        if u == caller && c == db[id].columnId {
          Ordering.CloseDense(Orders(db, u, c), id);
        }
      }
    }
  }

  // ---------------------------------------------------------------------
  // PUT /:id/move

  /** PUT /:id/move: lowers the orders above the task in its stored column only
      when the request names that column as the source, raises the orders at or
      above `newIndex` in the destination column, then saves the task with the
      destination column and `newIndex`.  An unknown destination fails the save
      after both passes have run. */
  function MoveTask(db: Db, caller: UserId, id: TaskId, req: MoveRequest): (r: (Db, Reply<Task>))
    ensures r.1.NotFound? <==> !Owns(db, caller, id)
    ensures r.1.NotFound? ==> r.0 == db && r.1.message == "Task not found"
    ensures r.1.Ok? || r.1.NotFound? || r.1.ServerError?
    ensures r.0.Keys == db.Keys
    ensures r.1.Ok? ==>
      && ColumnName(r.1.value.columnId) == req.destinationColumn
      && r.1.value.order == req.newIndex
      && r.1.value == db[id].(columnId := r.1.value.columnId, order := req.newIndex)
      && r.0[id] == r.1.value
    ensures r.1.ServerError? ==> r.0 == MovePasses(db, caller, id, req)
    ensures r.1.Ok? ==> r.0 == MovePasses(db, caller, id, req)[id := r.1.value]
  {
    if !Owns(db, caller, id) then (db, NotFound("Task not found"))
    else
      var t := db[id];
      var passed := MovePasses(db, caller, id, req);
      match ParseColumn(req.destinationColumn)
      case None => (passed, ServerError)
      case Some(d) =>
        var moved := t.(columnId := d, order := req.newIndex);
        if !Valid(moved) then (passed, ServerError) else (passed[id := moved], Ok(moved))
  }

  /** The two `updateMany` passes of a move, before the task itself is saved. */
  function MovePasses(db: Db, caller: UserId, id: TaskId, req: MoveRequest): (r: Db)
    requires id in db
    ensures r.Keys == db.Keys
  {
    var t := db[id];
    var afterSource := if ColumnName(t.columnId) == req.sourceColumn
                       then ShiftDown(db, caller, ColumnName(t.columnId), t.order) else db;
    ShiftUp(afterSource, caller, req.destinationColumn, req.newIndex)
  }

  /** The two passes of a move on one partition: the lower pass touches the
      stored column only when the request names it as the source, the raise
      pass touches the column the request names as the destination. */
  lemma MovePassesOrders(db: Db, caller: UserId, id: TaskId, req: MoveRequest, u: UserId, c: Column)
    requires id in db
    ensures var t := db[id];
            var m := Orders(db, u, c);
            var m1 := if ColumnName(t.columnId) == req.sourceColumn && u == caller && c == t.columnId
                      then Ordering.Lower(m, t.order) else m;
            Orders(MovePasses(db, caller, id, req), u, c) ==
              if u == caller && ColumnName(c) == req.destinationColumn then Ordering.Raise(m1, req.newIndex) else m1
  {
    var t := db[id];
    var matched := ColumnName(t.columnId) == req.sourceColumn;
    var afterSource := if matched then ShiftDown(db, caller, ColumnName(t.columnId), t.order) else db;
    if matched {
      ShiftDownOrders(db, caller, ColumnName(t.columnId), t.order, u, c);
    }
    ColumnNameInjective(c, t.columnId);
    ShiftUpOrders(afterSource, caller, req.destinationColumn, req.newIndex, u, c);
  }

  /** The effect of a successful move on every partition.  With the stored
      column named as the source, the source partition has its gap closed and
      the destination has a slot opened at `newIndex`; with another source
      the task is taken out of its old partition without lowering the orders
      above it. */
  lemma MoveOrders(db: Db, caller: UserId, id: TaskId, req: MoveRequest, u: UserId, c: Column)
    requires Owns(db, caller, id) && db[id].id == id
    requires MoveTask(db, caller, id, req).1.Ok?
    ensures var t := db[id];
            var d := MoveTask(db, caller, id, req).1.value.columnId;
            var m := Orders(db, u, c);
            var isSrc := u == caller && c == t.columnId;
            var lowered := isSrc && ColumnName(t.columnId) == req.sourceColumn;
            var isDst := u == caller && c == d;
            Orders(MoveTask(db, caller, id, req).0, u, c) ==
              if isSrc && isDst then (if lowered then Ordering.Open(Ordering.Close(m, id), id, req.newIndex)
                                      else Ordering.Open(m - {id}, id, req.newIndex))
              else if isSrc then (if lowered then Ordering.Close(m, id) else m - {id})
              else if isDst then Ordering.Open(m, id, req.newIndex)
              else m
  {
    var t := db[id];
    var r := MoveTask(db, caller, id, req);
    var moved := r.1.value;
    var d := moved.columnId;
    var k := req.newIndex;
    var m := Orders(db, u, c);
    var isSrc := u == caller && c == t.columnId;
    var lowered := isSrc && ColumnName(t.columnId) == req.sourceColumn;
    var isDst := u == caller && c == d;
    var passed := MovePasses(db, caller, id, req);
    assert r.0 == passed[id := moved];
    ColumnNameInjective(c, d);
    MovePassesOrders(db, caller, id, req, u, c);
    var m1 := if lowered then Ordering.Lower(m, t.order) else m;
    var m2 := Orders(passed, u, c);
    assert m2 == if isDst then Ordering.Raise(m1, k) else m1;
    assert moved.id == id && moved.createdBy == caller && moved.order == k;
    SaveOrders(passed, moved, u, c);
    assert Orders(r.0, u, c) == if isDst then (m2 - {id})[id := k] else m2 - {id};
    Ordering.PassesThenSave(m, id, t.order, k, isSrc, lowered, isDst);
  }

  /** The headline property: a move keeps every partition dense when the
      request names the task's stored column as the source, the destination is
      a known column, and `newIndex` is a valid insertion position in the
      destination partition without the moved task. */
  lemma MovePreservesInv(db: Db, caller: UserId, id: TaskId, req: MoveRequest)
    requires Inv(db)
    requires Owns(db, caller, id)
    requires req.sourceColumn == ColumnName(db[id].columnId)
    requires ParseColumn(req.destinationColumn).Some?
    requires 0 <= req.newIndex <= |Orders(db - {id}, caller, ParseColumn(req.destinationColumn).value)|
    ensures MoveTask(db, caller, id, req).1.Ok?
    ensures Inv(MoveTask(db, caller, id, req).0)
  {
    var r := MoveTask(db, caller, id, req);
    MoveSucceeds(db, caller, id, req);
    PassesKeepWellFormed(db, caller, id, req);
    SaveKeepsWellFormed(MovePasses(db, caller, id, req), r.1.value);
    forall u, c
      ensures Ordering.Dense(Orders(r.0, u, c))
    {
      MoveKeepsDense(db, caller, id, req, u, c);
    }
  }

  /** A move to a known column succeeds and saves the task with that column
      and `newIndex`, everything else unchanged. */
  lemma MoveSucceeds(db: Db, caller: UserId, id: TaskId, req: MoveRequest)
    requires WellFormed(db) && Owns(db, caller, id)
    requires ParseColumn(req.destinationColumn).Some?
    ensures MoveTask(db, caller, id, req).1.Ok?
    ensures MoveTask(db, caller, id, req).1.value ==
              db[id].(columnId := ParseColumn(req.destinationColumn).value, order := req.newIndex)
  {
    var moved := db[id].(columnId := ParseColumn(req.destinationColumn).value, order := req.newIndex);
    assert Valid(moved);
  }

  /** The two passes change orders only, so every document stays valid. */
  lemma PassesKeepWellFormed(db: Db, caller: UserId, id: TaskId, req: MoveRequest)
    requires WellFormed(db) && id in db
    ensures WellFormed(MovePasses(db, caller, id, req))
  {
    var p := MovePasses(db, caller, id, req);
    forall k | k in p
      ensures p[k].id == k && Valid(p[k])
    {
      assert p[k] == db[k].(order := p[k].order);
    }
  }

  /** One partition after a well-formed move is dense. */
  lemma MoveKeepsDense(db: Db, caller: UserId, id: TaskId, req: MoveRequest, u: UserId, c: Column)
    requires Inv(db)
    requires Owns(db, caller, id)
    requires req.sourceColumn == ColumnName(db[id].columnId)
    requires ParseColumn(req.destinationColumn).Some?
    requires 0 <= req.newIndex <= |Orders(db - {id}, caller, ParseColumn(req.destinationColumn).value)|
    requires MoveTask(db, caller, id, req).1.Ok?
    ensures Ordering.Dense(Orders(MoveTask(db, caller, id, req).0, u, c))
  {
    var t := db[id];
    var d := ParseColumn(req.destinationColumn).value;
    var k := req.newIndex;
    assert MoveTask(db, caller, id, req).1.value.columnId == d;
    MoveOrders(db, caller, id, req, u, c);
    var m := Orders(db, u, c);
    assert Ordering.Dense(m);
    RemoveOrders(db, id, caller, d);
    if u == caller && c == t.columnId && c == d {
      Ordering.CloseDense(m, id);
      Ordering.OpenDense(Ordering.Close(m, id), id, k);
    } else if u == caller && c == t.columnId {
      Ordering.CloseDense(m, id);
    } else if u == caller && c == d {
      assert id !in m;
      Ordering.WithoutAbsent(m, id);
      Ordering.OpenDense(m, id, k);
    }
  }

  // ---------------------------------------------------------------------
  // The move's save as Mongoose performs it.

  /** The request asks for the place the task already has: its stored column
      and its stored order. */
  predicate NoOpMove(db: Db, id: TaskId, req: MoveRequest) {
    id in db && ParseColumn(req.destinationColumn) == Some(db[id].columnId) && req.newIndex == db[id].order
  }

  /** PUT /:id/move as written.  `task` is read before the two passes, and
      `save()` writes only the paths whose assignment changed that copy: the
      column when the destination differs from the stored column, the order
      when `newIndex` differs from the stored order.  A path it does not write
      keeps what the passes left in the collection.  The reply is the same as
      for `MoveTask`. */
  function MoveTaskAsWritten(db: Db, caller: UserId, id: TaskId, req: MoveRequest): (r: (Db, Reply<Task>))
    ensures r.1 == MoveTask(db, caller, id, req).1
    ensures NoOpMove(db, id, req) && Owns(db, caller, id) ==> r.0 == MovePasses(db, caller, id, req)
  {
    if !Owns(db, caller, id) then (db, NotFound("Task not found"))
    else
      var t := db[id];
      var passed := MovePasses(db, caller, id, req);
      match ParseColumn(req.destinationColumn)
      case None => (passed, ServerError)
      case Some(d) =>
        var moved := t.(columnId := d, order := req.newIndex);
        if !Valid(moved) then (passed, ServerError)
        else
          var stored := passed[id];
          var written := stored.(columnId := if d == t.columnId then stored.columnId else d,
                                 order := if req.newIndex == t.order then stored.order else req.newIndex);
          (passed[id := written], Ok(moved))
  }

  /** The passes change only orders, and they leave the moving task's own order
      alone unless the raise pass runs on its stored column. */
  lemma PassesKeepTask(db: Db, caller: UserId, id: TaskId, req: MoveRequest)
    requires id in db
    ensures MovePasses(db, caller, id, req)[id] == db[id].(order := MovePasses(db, caller, id, req)[id].order)
    ensures req.destinationColumn != ColumnName(db[id].columnId) ==> MovePasses(db, caller, id, req)[id] == db[id]
  {
  }

  /** Every move other than the no-op one writes exactly what `MoveTask`
      saves, so the two handlers differ only on a request for the place the
      task already has. */
  lemma MoveAsWrittenAgrees(db: Db, caller: UserId, id: TaskId, req: MoveRequest)
    requires !NoOpMove(db, id, req)
    ensures MoveTaskAsWritten(db, caller, id, req) == MoveTask(db, caller, id, req)
  {
    if Owns(db, caller, id) && ParseColumn(req.destinationColumn).Some? {
      var t := db[id];
      var d := ParseColumn(req.destinationColumn).value;
      PassesKeepTask(db, caller, id, req);
      ColumnNameInjective(d, t.columnId);
    }
  }

  /** The invariant for the handler as written: the three conditions of
      `MovePreservesInv` and a request that is not the no-op one. */
  lemma MoveAsWrittenPreservesInv(db: Db, caller: UserId, id: TaskId, req: MoveRequest)
    requires Inv(db)
    requires Owns(db, caller, id)
    requires req.sourceColumn == ColumnName(db[id].columnId)
    requires ParseColumn(req.destinationColumn).Some?
    requires 0 <= req.newIndex <= |Orders(db - {id}, caller, ParseColumn(req.destinationColumn).value)|
    requires !NoOpMove(db, id, req)
    ensures MoveTaskAsWritten(db, caller, id, req).1.Ok?
    ensures Inv(MoveTaskAsWritten(db, caller, id, req).0)
  {
    MoveAsWrittenAgrees(db, caller, id, req);
    MovePreservesInv(db, caller, id, req);
  }

  /** Counter-lemma: on any consistent store, moving a task to its own column
      and order with the handler as written breaks its partition.  The raise
      pass lifts the task to order+1 and the save does not write it back, so
      the task either leaves 0 .. n-1 or shares its order with the task that
      was one above it.  `NoOpMoveKeepsOrders` is the same request on
      `MoveTask`, which writes the order. */
  lemma NoOpMoveBreaksDensity(db: Db, caller: UserId, id: TaskId, req: MoveRequest)
    requires Inv(db) && Owns(db, caller, id)
    requires req.sourceColumn == ColumnName(db[id].columnId)
    requires NoOpMove(db, id, req)
    ensures !Ordering.Dense(Orders(MoveTaskAsWritten(db, caller, id, req).0, caller, db[id].columnId))
    ensures !Inv(MoveTaskAsWritten(db, caller, id, req).0)
  {
    var t := db[id];
    var c := t.columnId;
    var m := Orders(db, caller, c);
    assert Valid(t.(columnId := c, order := t.order));
    assert MoveTaskAsWritten(db, caller, id, req).0 == MovePasses(db, caller, id, req);
    MovePassesOrders(db, caller, id, req, caller, c);
    Ordering.PassesWithoutSaveBreakDensity(m, id);
  }

  /** The same request on `MoveTask`, whose save writes the order: every
      partition is as it was, which is what a request for the task's own place
      should do. */
  lemma NoOpMoveKeepsOrders(db: Db, caller: UserId, id: TaskId, req: MoveRequest)
    requires Inv(db) && Owns(db, caller, id)
    requires req.sourceColumn == ColumnName(db[id].columnId)
    requires NoOpMove(db, id, req)
    ensures MoveTask(db, caller, id, req).1.Ok?
    ensures forall u, c :: Orders(MoveTask(db, caller, id, req).0, u, c) == Orders(db, u, c)
  {
    MoveSucceeds(db, caller, id, req);
    forall u, c
      ensures Orders(MoveTask(db, caller, id, req).0, u, c) == Orders(db, u, c)
    {
      MoveOrders(db, caller, id, req, u, c);
      if u == caller && c == db[id].columnId {
        Ordering.CloseThenReopen(Orders(db, u, c), id);
      }
    }
  }
}

=== FILE: text.dfy ===
/** The string helpers the source takes from JavaScript: `String.prototype.trim`
    (used by the Mongoose `trim` setters and by the task form), and
    `split(' ')` / `join` (used for avatar initials). */
module Text {

  /** JavaScript white space and line terminators, the characters `trim` removes. */
  predicate IsSpace(c: char) {
    || c == ' ' || c == '\t' || c == '\n' || c == '\r'
    || c == '\U{000B}' || c == '\U{000C}' || c == '\U{00A0}' || c == '\U{FEFF}'
    || c == '\U{1680}' || ('\U{2000}' <= c <= '\U{200A}')
    || c == '\U{2028}' || c == '\U{2029}' || c == '\U{202F}' || c == '\U{205F}'
    || c == '\U{3000}'
  }

  predicate AllSpace(s: string) {
    forall k :: 0 <= k < |s| ==> IsSpace(s[k])
  }

  /** Number of leading white-space characters. */
  function Lead(s: string): (n: nat)
    ensures n <= |s|
    ensures AllSpace(s[..n])
    ensures n < |s| ==> !IsSpace(s[n])
  {
    if s == [] || !IsSpace(s[0]) then 0
    else
      var n := 1 + Lead(s[1..]);
      assert s[..n] == [s[0]] + s[1..][..n - 1];
      n
  }

  /** Number of trailing white-space characters. */
  function Trail(s: string): (n: nat)
    ensures n <= |s|
    ensures AllSpace(s[|s| - n..])
    ensures n < |s| ==> !IsSpace(s[|s| - n - 1])
  {
    if s == [] || !IsSpace(s[|s| - 1]) then 0
    else
      var n := 1 + Trail(s[..|s| - 1]);
      assert s[|s| - n..] == s[..|s| - 1][|s| - n..] + [s[|s| - 1]];
      n
  }

  /** `s.trim()`: the longest slice of `s` that neither starts nor ends with white space. */
  function Trim(s: string): (r: string)
    ensures |r| <= |s|
    ensures r == [] <==> AllSpace(s)
    ensures r != [] ==> !IsSpace(r[0]) && !IsSpace(r[|r| - 1])
    ensures Lead(s) + |r| <= |s|
    ensures r == s[Lead(s)..Lead(s) + |r|]
    ensures AllSpace(s[Lead(s) + |r|..])
  {
    var i := Lead(s);
    if i == |s| then
      assert s == s[..i];
      []
    else
      var t := s[i..];
      var j := Trail(t);
      assert t[0] == s[i];
      assert s[i + |t| - j..] == t[|t| - j..];
      assert !AllSpace(s) by { assert !IsSpace(s[i]); }
      t[..|t| - j]
  }

  /** Trimming twice is trimming once. */
  lemma TrimIdempotent(s: string)
    ensures Trim(Trim(s)) == Trim(s)
  {
    var r := Trim(s);
    if r != [] {
      assert Lead(r) == 0;
      assert Trail(r) == 0;
    }
  }

  /** Neither starts nor ends with white space. */
  predicate Trimmed(s: string) {
    s == [] || (!IsSpace(s[0]) && !IsSpace(s[|s| - 1]))
  }

  /** The trimmed strings are exactly the ones `trim` leaves unchanged. */
  lemma TrimmedIff(s: string)
    ensures Trimmed(s) <==> Trim(s) == s
  {
    if Trimmed(s) && s != [] {
      assert Lead(s) == 0;
      if |Trim(s)| < |s| {
        assert false;
      }
    }
  }

  /** A string whose trimmed form is empty: the source's `!s.trim()`. */
  predicate Blank(s: string) {
    Trim(s) == []
  }

  /** `s.split(sep)`: the maximal separator-free segments, empty ones included. */
  function Split(s: string, sep: char): (segs: seq<string>)
    ensures |segs| >= 1
    ensures forall i, k :: 0 <= i < |segs| && 0 <= k < |segs[i]| ==> segs[i][k] != sep
  {
    if s == [] then [""]
    else
      var rest := Split(s[1..], sep);
      if s[0] == sep then [""] + rest
      else [[s[0]] + rest[0]] + rest[1..]
  }

  /** `segs.join(sep)`. */
  function Join(segs: seq<string>, sep: char): string
    requires |segs| >= 1
  {
    if |segs| == 1 then segs[0]
    else segs[0] + [sep] + Join(segs[1..], sep)
  }

  /** Splitting and joining with the same separator gives the string back. */
  lemma {:induction false} JoinSplit(s: string, sep: char)
    ensures Join(Split(s, sep), sep) == s
  {
    if s != [] {
      JoinSplit(s[1..], sep);
      var rest := Split(s[1..], sep);
      if s[0] == sep {
        assert Split(s, sep)[1..] == rest;
      } else {
        var segs := Split(s, sep);
        if |rest| == 1 {
          assert segs == [[s[0]] + rest[0]];
        } else {
          assert segs[1..] == rest[1..];
          assert Join(segs, sep) == [s[0]] + rest[0] + [sep] + Join(rest[1..], sep);
        }
      }
    }
  }
}

=== FILE: workspace_routes.dfy ===
/** The workspace routes (backend/routes/workspaces.js) as pure transitions
    on the workspace collection.  Only the owner may change a workspace; any
    other caller gets "Workspace not found" and nothing changes. */
module WorkspaceRoutes {
  import opened Wrappers
  import opened Ids
  import opened WorkspaceModel
  import Text

  /** The workspace collection, keyed by `_id`. */
  type WsDb = map<WorkspaceId, Workspace>

  /** `User.findOne({ email })`: e-mail address to user id. */
  type Emails = map<string, UserId>

  /** `member.user.toString() === u` for some entry. */
  predicate IsMember(ms: seq<MemberEntry>, u: UserId) {
    exists i :: 0 <= i < |ms| && ms[i].user == u
  }

  /** No user appears twice in the member list. */
  predicate UniqueMembers(ms: seq<MemberEntry>) {
    forall i, j :: 0 <= i < j < |ms| ==> ms[i].user != ms[j].user
  }

  /** The invariant the routes keep: every workspace is stored under its own
      id, passed validation, and lists each member once. */
  ghost predicate Inv(db: WsDb) {
    forall id :: id in db ==> db[id].id == id && Valid(db[id]) && UniqueMembers(db[id].members)
  }

  /** `findOne({ _id: id, owner: caller })` finds the workspace. */
  predicate OwnedBy(db: WsDb, caller: UserId, id: WorkspaceId) {
    id in db && db[id].owner == caller
  }

  /** The filter of GET /: the caller owns the workspace or is listed in it. */
  predicate Sees(w: Workspace, caller: UserId) {
    w.owner == caller || IsMember(w.members, caller)
  }

  // ---------------------------------------------------------------------
  // GET /

  /** `Workspace.find({ $or: [{ owner: caller }, { 'members.user': caller }] })`. */
  function ListWorkspaces(db: WsDb, caller: UserId): (r: set<WorkspaceId>)
    ensures forall id :: id in r <==> id in db && (db[id].owner == caller || IsMember(db[id].members, caller))
  {
    set id | id in db && Sees(db[id], caller)
  }

  // ---------------------------------------------------------------------
  // POST /

  /** POST /: a new workspace owned by the caller, whose only member is the
      caller with the role "owner". */
  function CreateWorkspace(db: WsDb, caller: UserId, name: Option<string>, newId: WorkspaceId): (r: (WsDb, Reply<Workspace>))
    ensures r.1.Created? || (r.1.ServerError? && r.0 == db)
    ensures r.1.Created? <==> newId !in db && name.Some? && !Text.Blank(name.value)
    ensures r.1.Created? ==>
      && r.0 == db[newId := r.1.value]
      && r.1.value == Workspace(newId, Text.Trim(name.value), caller, [MemberEntry(caller, Owner)])
  {
    match Build(newId, name, caller, [MemberDraft(caller, Some("owner"))])
    case None => (db, ServerError)
    case Some(w) => if newId in db then (db, ServerError) else (db[newId := w], Created(w))
  }

  // ---------------------------------------------------------------------
  // PUT /:id

  /** PUT /:id: the owner renames the workspace.  A missing or blank name
      fails validation. */
  function UpdateWorkspace(db: WsDb, caller: UserId, id: WorkspaceId, name: Option<string>): (r: (WsDb, Reply<Workspace>))
    ensures r.1.NotFound? <==> !OwnedBy(db, caller, id)
    ensures r.1.NotFound? ==> r.0 == db && r.1.message == "Workspace not found"
    ensures r.1.Ok? || r.1.NotFound? || (r.1.ServerError? && r.0 == db)
    ensures OwnedBy(db, caller, id) ==> (r.1.Ok? <==> name.Some? && !Text.Blank(name.value))
    ensures r.1.Ok? ==> r.0 == db[id := r.1.value] && r.1.value == db[id].(name := Text.Trim(name.value))
  {
    if !OwnedBy(db, caller, id) then (db, NotFound("Workspace not found"))
    else if name.None? || Text.Blank(name.value) then (db, ServerError)
    else
      Text.TrimIdempotent(name.value);
      var w := db[id].(name := Text.Trim(name.value));
      (db[id := w], Ok(w))
  }

  // ---------------------------------------------------------------------
  // DELETE /:id

  /** DELETE /:id: the owner removes the workspace. */
  function DeleteWorkspace(db: WsDb, caller: UserId, id: WorkspaceId): (r: (WsDb, Reply<string>))
    ensures r.1.NotFound? <==> !OwnedBy(db, caller, id)
    ensures r.1.NotFound? ==> r.0 == db && r.1.message == "Workspace not found"
    ensures r.1.Ok? || r.1.NotFound?
    ensures r.1.Ok? ==> r.0 == db - {id} && r.1.value == "Workspace deleted"
  {
    if !OwnedBy(db, caller, id) then (db, NotFound("Workspace not found"))
    else (db - {id}, Ok("Workspace deleted"))
  }

  // ---------------------------------------------------------------------
  // POST /:id/members

  /** POST /:id/members: the owner adds the user with this e-mail address at
      the end of the member list, with the given role or "member".  Checked in
      order: ownership, then the user lookup, then membership; an unknown role
      fails validation. */
  function AddMember(db: WsDb, emails: Emails, caller: UserId, id: WorkspaceId, email: string, role: Option<string>): (r: (WsDb, Reply<Workspace>))
    ensures r.1.Ok? || r.1.NotFound? || r.1.BadRequest? || r.1.ServerError?
    ensures !r.1.Ok? ==> r.0 == db
    ensures r.1.NotFound? <==> !OwnedBy(db, caller, id) || email !in emails
    ensures !OwnedBy(db, caller, id) ==> r.1 == NotFound("Workspace not found")
    ensures OwnedBy(db, caller, id) && email !in emails ==> r.1 == NotFound("User not found")
    ensures r.1.BadRequest? <==> OwnedBy(db, caller, id) && email in emails && IsMember(db[id].members, emails[email])
    ensures r.1.BadRequest? ==> r.1.message == "User is already a member"
    ensures r.1.Ok? ==>
      && r.0 == db[id := r.1.value]
      && r.1.value.id == db[id].id && r.1.value.name == db[id].name && r.1.value.owner == db[id].owner
      && |r.1.value.members| == |db[id].members| + 1
      && r.1.value.members[..|db[id].members|] == db[id].members
      && r.1.value.members[|db[id].members|].user == emails[email]
      && RoleName(r.1.value.members[|db[id].members|].role) == role.GetOr("member")
  {
    if !OwnedBy(db, caller, id) then (db, NotFound("Workspace not found"))
    else if email !in emails then (db, NotFound("User not found"))
    else
      var u := emails[email];
      var w := db[id];
      if IsMember(w.members, u) then (db, BadRequest("User is already a member"))
      else
        match ParseRole(role.GetOr("member"))
        case None => (db, ServerError)
        case Some(ro) =>
          var w' := w.(members := w.members + [MemberEntry(u, ro)]);
          (db[id := w'], Ok(w'))
  }

  // ---------------------------------------------------------------------
  // DELETE /:id/members/:userId

  /** `members.filter(member => member.user.toString() !== u)`. */
  function WithoutUser(ms: seq<MemberEntry>, u: UserId): (r: seq<MemberEntry>)
    ensures |r| <= |ms|
    ensures forall e :: e in r <==> e in ms && e.user != u
  {
    if ms == [] then []
    else (if ms[0].user != u then [ms[0]] else []) + WithoutUser(ms[1..], u)
  }

  /** DELETE /:id/members/:userId: the owner drops every entry of that user.
      Nothing stops the owner from dropping their own entry. */
  function RemoveMember(db: WsDb, caller: UserId, id: WorkspaceId, u: UserId): (r: (WsDb, Reply<Workspace>))
    ensures r.1.NotFound? <==> !OwnedBy(db, caller, id)
    ensures r.1.NotFound? ==> r.0 == db && r.1.message == "Workspace not found"
    ensures r.1.Ok? || r.1.NotFound?
    ensures r.1.Ok? ==>
      && r.0 == db[id := r.1.value]
      && r.1.value == db[id].(members := WithoutUser(db[id].members, u))
      && !IsMember(r.1.value.members, u)
  {
    if !OwnedBy(db, caller, id) then (db, NotFound("Workspace not found"))
    else
      var w := db[id].(members := WithoutUser(db[id].members, u));
      assert forall i :: 0 <= i < |w.members| ==> w.members[i] in w.members;
      (db[id := w], Ok(w))
  }

  // ---------------------------------------------------------------------
  // Properties of the member list.

  /** Filtering splits over concatenation, so the kept entries stay in their
      original order. */
  lemma {:induction false} WithoutUserAppend(a: seq<MemberEntry>, b: seq<MemberEntry>, u: UserId)
    ensures WithoutUser(a + b, u) == WithoutUser(a, u) + WithoutUser(b, u)
  {
    if a == [] {
      assert a + b == b;
    } else {
      assert (a + b)[0] == a[0];
      assert (a + b)[1..] == a[1..] + b;
      WithoutUserAppend(a[1..], b, u);
    }
  }

  /** Filtering out a user who is not listed changes nothing. */
  lemma {:induction false} WithoutAbsentUser(ms: seq<MemberEntry>, u: UserId)
    requires !IsMember(ms, u)
    ensures WithoutUser(ms, u) == ms
  {
    if ms != [] {
      assert !IsMember(ms[1..], u) by {
        forall i | 0 <= i < |ms[1..]|
          ensures ms[1..][i].user != u
        {
          assert ms[1..][i] == ms[i + 1];
        }
      }
      WithoutAbsentUser(ms[1..], u);
    }
  }

  /** Filtering keeps a list of distinct members distinct. */
  lemma {:induction false} WithoutUserUnique(ms: seq<MemberEntry>, u: UserId)
    requires UniqueMembers(ms)
    ensures UniqueMembers(WithoutUser(ms, u))
  {
    if ms != [] {
      WithoutUserUnique(ms[1..], u);
      var rest := WithoutUser(ms[1..], u);
      forall e | e in rest
        ensures e.user != ms[0].user
      {
        var i :| 0 <= i < |ms[1..]| && ms[1..][i] == e;
        assert ms[i + 1] == e;
      }
    }
  }

  /** Removing a member the owner just added gives back the old member list:
      add and remove are inverse. */
  lemma AddThenRemove(db: WsDb, emails: Emails, caller: UserId, id: WorkspaceId, email: string, role: Option<string>)
    requires AddMember(db, emails, caller, id, email, role).1.Ok?
    ensures var added := AddMember(db, emails, caller, id, email, role).0;
            RemoveMember(added, caller, id, emails[email]).1 == Ok(db[id])
  {
    var u := emails[email];
    var w := db[id];
    var r := AddMember(db, emails, caller, id, email, role);
    var w' := r.1.value;
    var e := w'.members[|w.members|];
    assert w'.members == w.members + [e];
    assert !IsMember(w.members, u);
    WithoutUserAppend(w.members, [e], u);
    WithoutAbsentUser(w.members, u);
    assert WithoutUser([e], u) == [] by {
      assert e.user == u;
      assert [e][1..] == [];
    }
    assert WithoutUser(w'.members, u) == w.members;
    assert OwnedBy(r.0, caller, id) && r.0[id] == w';
    assert w'.(members := w.members) == w;
  }

  /** Every route keeps the invariant: member users stay unique because an
      add refuses a user who is already listed. */
  lemma RoutesPreserveInv(db: WsDb, emails: Emails, caller: UserId, id: WorkspaceId, newId: WorkspaceId,
                          name: Option<string>, email: string, role: Option<string>, u: UserId)
    requires Inv(db)
    ensures Inv(CreateWorkspace(db, caller, name, newId).0)
    ensures Inv(UpdateWorkspace(db, caller, id, name).0)
    ensures Inv(DeleteWorkspace(db, caller, id).0)
    ensures Inv(AddMember(db, emails, caller, id, email, role).0)
    ensures Inv(RemoveMember(db, caller, id, u).0)
  {
    AddKeepsInv(db, emails, caller, id, email, role);
    RemoveKeepsInv(db, caller, id, u);
  }

  /** An add appends a user not yet listed, so the users stay distinct. */
  lemma AddKeepsInv(db: WsDb, emails: Emails, caller: UserId, id: WorkspaceId, email: string, role: Option<string>)
    requires Inv(db)
    ensures Inv(AddMember(db, emails, caller, id, email, role).0)
  {
    var add := AddMember(db, emails, caller, id, email, role);
    if add.1.Ok? {
      var ms := add.1.value.members;
      var before := db[id].members;
      var n := |before|;
      assert ms[..n] == before;
      forall i, j | 0 <= i < j < |ms|
        ensures ms[i].user != ms[j].user
      {
        assert ms[i] == before[i];
        if j < n {
          assert ms[j] == before[j];
        }
      }
    }
  }

  /** A remove keeps the users distinct. */
  lemma RemoveKeepsInv(db: WsDb, caller: UserId, id: WorkspaceId, u: UserId)
    requires Inv(db)
    ensures Inv(RemoveMember(db, caller, id, u).0)
  {
    if OwnedBy(db, caller, id) {
      WithoutUserUnique(db[id].members, u);
    }
  }

  // ---------------------------------------------------------------------
  // Visibility.

  /** The creator sees the new workspace. */
  lemma CreatorSeesWorkspace(db: WsDb, caller: UserId, name: Option<string>, newId: WorkspaceId)
    requires CreateWorkspace(db, caller, name, newId).1.Created?
    ensures newId in ListWorkspaces(CreateWorkspace(db, caller, name, newId).0, caller)
  {
  }

  /** An added member sees the workspace; a removed member sees it no longer,
      unless they own it: an owner who removes their own entry still sees the
      workspace through the owner field. */
  lemma MembershipDecidesVisibility(db: WsDb, emails: Emails, caller: UserId, id: WorkspaceId, email: string, role: Option<string>, u: UserId)
    ensures var r := AddMember(db, emails, caller, id, email, role);
            r.1.Ok? ==> id in ListWorkspaces(r.0, emails[email])
    ensures var r := RemoveMember(db, caller, id, u);
            r.1.Ok? ==> (id in ListWorkspaces(r.0, u) <==> u == caller)
  {
    var r := AddMember(db, emails, caller, id, email, role);
    if r.1.Ok? {
      var n := |db[id].members|;
      assert r.0[id].members[n].user == emails[email];
    }
  }

  /** Only the owner changes a workspace: for any other caller every
      mutating route answers "Workspace not found" and stores nothing. */
  lemma OnlyOwnerMutates(db: WsDb, emails: Emails, caller: UserId, id: WorkspaceId, name: Option<string>, email: string, role: Option<string>, u: UserId)
    requires !OwnedBy(db, caller, id)
    ensures UpdateWorkspace(db, caller, id, name) == (db, NotFound("Workspace not found"))
    ensures DeleteWorkspace(db, caller, id) == (db, NotFound("Workspace not found"))
    ensures AddMember(db, emails, caller, id, email, role) == (db, NotFound("Workspace not found"))
    ensures RemoveMember(db, caller, id, u) == (db, NotFound("Workspace not found"))
  {
  }
}

=== FILE: workspace_view.dfy ===
/** The client's view of a workspace (src/services/workspaceService.ts):
    `transformWorkspace` turns a populated workspace document into the
    `Workspace` interface the pages use. */
module WorkspaceView {
  import opened Wrappers
  import opened Ids
  import opened WorkspaceModel

  /** A user reference after `populate(..., 'name email')`: the `_id` plus the
      two selected fields. */
  datatype Profile = Profile(id: UserId, name: string, email: string)

  datatype MemberDoc = MemberDoc(user: Profile, role: Role)

  /** A populated workspace document as the routes send it; `createdAt` is
      carried as the opaque text the JSON holds. */
  datatype Doc = Doc(id: WorkspaceId, name: string, owner: Profile, members: seq<MemberDoc>, createdAt: string)

  /** The `owner` and `members[].user` objects of the client interface. */
  datatype UserView = UserView(id: UserId, name: string, email: string)

  /** The role stays the three-valued `'owner' | 'admin' | 'member'`. */
  datatype MemberView = MemberView(user: UserView, role: Role)

  /** The client `Workspace` interface. */
  datatype View = View(id: WorkspaceId, name: string, owner: UserView, members: seq<MemberView>, createdAt: string)

  function ToUser(p: Profile): (v: UserView)
    ensures v.id == p.id && v.name == p.name && v.email == p.email
  {
    UserView(p.id, p.name, p.email)
  }

  /** `doc.members.map(...)`: one view per entry, same order, role copied. */
  function ToMembers(ms: seq<MemberDoc>): (r: seq<MemberView>)
    ensures |r| == |ms|
    ensures forall i :: 0 <= i < |ms| ==> r[i].user == ToUser(ms[i].user) && r[i].role == ms[i].role
  {
    if ms == [] then [] else [MemberView(ToUser(ms[0].user), ms[0].role)] + ToMembers(ms[1..])
  }

  /** `transformWorkspace`. */
  function Transform(d: Doc): (v: View)
    ensures v.id == d.id && v.name == d.name && v.createdAt == d.createdAt
    ensures v.owner.id == d.owner.id && v.owner.name == d.owner.name && v.owner.email == d.owner.email
    ensures |v.members| == |d.members|
    ensures forall i :: 0 <= i < |d.members| ==>
      && v.members[i].user.id == d.members[i].user.id
      && v.members[i].user.name == d.members[i].user.name
      && v.members[i].user.email == d.members[i].user.email
      && v.members[i].role == d.members[i].role
  {
    View(d.id, d.name, ToUser(d.owner), ToMembers(d.members), d.createdAt)
  }

  // ---------------------------------------------------------------------
  // The inverse: the view loses nothing of the document.

  function FromUser(v: UserView): (p: Profile)
    ensures ToUser(p) == v
  {
    Profile(v.id, v.name, v.email)
  }

  function FromMembers(ms: seq<MemberView>): (r: seq<MemberDoc>)
    ensures |r| == |ms|
    ensures forall i :: 0 <= i < |ms| ==> ToUser(r[i].user) == ms[i].user && r[i].role == ms[i].role
  {
    if ms == [] then [] else [MemberDoc(FromUser(ms[0].user), ms[0].role)] + FromMembers(ms[1..])
  }

  /** Rebuilds the document a view came from. */
  function Untransform(v: View): (d: Doc)
    ensures d.id == v.id && d.name == v.name && |d.members| == |v.members|
  {
    Doc(v.id, v.name, FromUser(v.owner), FromMembers(v.members), v.createdAt)
  }

  /** Both round trips are the identity: the mapping is a bijection between
      documents and views, so no field is dropped or invented. */
  lemma TransformRoundTrip(d: Doc, v: View)
    ensures Untransform(Transform(d)) == d
    ensures Transform(Untransform(v)) == v
  {
    var ms := FromMembers(ToMembers(d.members));
    assert forall i :: 0 <= i < |ms| ==> ms[i] == d.members[i];
    var vs := ToMembers(FromMembers(v.members));
    assert forall i :: 0 <= i < |vs| ==> vs[i] == v.members[i];
  }

  /** Two documents with the same view are the same document. */
  lemma TransformInjective(d1: Doc, d2: Doc)
    requires Transform(d1) == Transform(d2)
    ensures d1 == d2
  {
    TransformRoundTrip(d1, Transform(d1));
    TransformRoundTrip(d2, Transform(d2));
  }

  // ---------------------------------------------------------------------
  // Populate: from a stored workspace to the document the routes send.

  /** A user directory is consistent when each profile is stored under its own id. */
  predicate Consistent(dir: map<UserId, Profile>) {
    forall u :: u in dir ==> dir[u].id == u
  }

  /** Every user the workspace refers to is in the directory. */
  predicate Resolvable(w: Workspace, dir: map<UserId, Profile>) {
    w.owner in dir && forall i :: 0 <= i < |w.members| ==> w.members[i].user in dir
  }

  function PopulateMembers(ms: seq<MemberEntry>, dir: map<UserId, Profile>): (r: seq<MemberDoc>)
    requires forall i :: 0 <= i < |ms| ==> ms[i].user in dir
    ensures |r| == |ms|
    ensures forall i :: 0 <= i < |ms| ==> r[i].user == dir[ms[i].user] && r[i].role == ms[i].role
  {
    if ms == [] then [] else [MemberDoc(dir[ms[0].user], ms[0].role)] + PopulateMembers(ms[1..], dir)
  }

  /** `populate('owner', 'name email')` and `populate('members.user', 'name email')`.
      Mongoose does not fail on a reference to a missing user: it leaves that
      reference `null` and the route still answers 200.  `None` stands for
      such a document, one that `transformWorkspace` cannot read, since it
      takes `_id` of the owner and of every member's user. */
  function Populate(w: Workspace, dir: map<UserId, Profile>, createdAt: string): (r: Option<Doc>)
    ensures r.Some? <==> Resolvable(w, dir)
    ensures r.Some? ==> r.value.id == w.id && r.value.name == w.name && r.value.owner == dir[w.owner]
  {
    if !Resolvable(w, dir) then None
    else Some(Doc(w.id, w.name, dir[w.owner], PopulateMembers(w.members, dir), createdAt))
  }

  /** `fetchWorkspaces`: `response.data.map(transformWorkspace)` over the
      populated list, each workspace paired with its `createdAt` text.  One
      null reference anywhere makes the map throw, so the client gets no list
      at all; otherwise it gets one view per workspace, in the route's order. */
  function FetchWorkspaces(stored: seq<(Workspace, string)>, dir: map<UserId, Profile>): (r: Option<seq<View>>)
    ensures r.Some? <==> forall i :: 0 <= i < |stored| ==> Resolvable(stored[i].0, dir)
    ensures r.Some? ==> |r.value| == |stored|
    ensures r.Some? ==> forall i :: 0 <= i < |stored| ==>
      Populate(stored[i].0, dir, stored[i].1).Some? && r.value[i] == Transform(Populate(stored[i].0, dir, stored[i].1).value)
  {
    if stored == [] then Some([])
    else
      var d := Populate(stored[0].0, dir, stored[0].1);
      var rest := FetchWorkspaces(stored[1..], dir);
      if d.None? || rest.None? then None
      else Some([Transform(d.value)] + rest.value)
  }

  /** With a consistent directory and no dangling reference, every fetched
      view reads back as the stored workspace it came from, with its
      `createdAt`: the client's list loses and invents nothing. */
  lemma FetchShowsStored(stored: seq<(Workspace, string)>, dir: map<UserId, Profile>)
    requires Consistent(dir)
    requires forall i :: 0 <= i < |stored| ==> Resolvable(stored[i].0, dir)
    ensures FetchWorkspaces(stored, dir).Some?
    ensures forall i :: 0 <= i < |stored| ==>
      var v := FetchWorkspaces(stored, dir).value[i];
      Unpopulate(Untransform(v)) == stored[i].0 && v.createdAt == stored[i].1
  {
    var r := FetchWorkspaces(stored, dir).value;
    forall i | 0 <= i < |stored|
      ensures Unpopulate(Untransform(r[i])) == stored[i].0 && r[i].createdAt == stored[i].1
    {
      var d := Populate(stored[i].0, dir, stored[i].1).value;
      PopulatedViewShowsWorkspace(stored[i].0, dir, stored[i].1);
      TransformRoundTrip(d, r[i]);
    }
  }

  /** Drops the populated details, keeping only the references. */
  function Unpopulate(d: Doc): (w: Workspace)
    ensures w.id == d.id && w.name == d.name && w.owner == d.owner.id && |w.members| == |d.members|
    ensures forall i :: 0 <= i < |d.members| ==> w.members[i] == MemberEntry(d.members[i].user.id, d.members[i].role)
  {
    Workspace(d.id, d.name, d.owner.id, seq(|d.members|, i requires 0 <= i < |d.members| => MemberEntry(d.members[i].user.id, d.members[i].role)))
  }

  /** With a consistent directory, populating loses no reference: the stored
      workspace can be read back from the document, and the view shows the
      same owner and the same members with the same roles in the same order. */
  lemma PopulatedViewShowsWorkspace(w: Workspace, dir: map<UserId, Profile>, createdAt: string)
    requires Consistent(dir) && Resolvable(w, dir)
    ensures Populate(w, dir, createdAt).Some?
    ensures Unpopulate(Populate(w, dir, createdAt).value) == w
    ensures var v := Transform(Populate(w, dir, createdAt).value);
            && v.id == w.id && v.name == w.name && v.owner.id == w.owner
            && |v.members| == |w.members|
            && forall i :: 0 <= i < |w.members| ==> v.members[i].user.id == w.members[i].user && v.members[i].role == w.members[i].role
  {
    var d := Populate(w, dir, createdAt).value;
    var back := Unpopulate(d);
    assert forall i :: 0 <= i < |w.members| ==> back.members[i] == w.members[i];
  }
}

=== FILE: wrappers.dfy ===
/** Small value wrappers shared by the whole model: optional values, the
    three states a field of a JSON request body can be in, and the replies
    the Express route handlers send. */
module Wrappers {

  /** A value that may be absent (`undefined`/`null` in the source). */
  datatype Option<+T> = None | Some(value: T) {

    /** The value, or `default` when absent (the source's `x || default`
        when every present value is truthy). */
    function GetOr(default: T): T {
      match this
      case Some(v) => v
      case None => default
    }
  }

  /** A field of a JSON request body: missing (`undefined`), an explicit
      `null`, or a value.  The route handlers treat the first two
      differently (`x !== undefined` versus `x === null`). */
  datatype Field<+T> = Undefined | Null | Val(value: T) {

    /** The value a schema path receives when the field is assigned:
        `null` and `undefined` both leave the path empty. */
    function ToOption(): Option<T> {
      match this
      case Val(v) => Some(v)
      case _ => None
    }
  }

  /** What a route handler answers.  `Ok` is status 200 and `Created` 201;
      `NotFound` and `BadRequest` carry the handler's message; every thrown
      error (a failed schema validation, a duplicate key) ends in the catch
      block that answers 500 "Server error". */
  datatype Reply<+T> =
    | Ok(value: T)
    | Created(value: T)
    | NotFound(message: string)
    | BadRequest(message: string)
    | ServerError
  {
    predicate Success() { Ok? || Created? }

    /** The HTTP status code the handler sets. */
    function Status(): (code: int)
      ensures Success() <==> 200 <= code < 300
      ensures code == 404 <==> NotFound?
    {
      match this
      case Ok(_) => 200
      case Created(_) => 201
      case NotFound(_) => 404
      case BadRequest(_) => 400
      case ServerError => 500
    }
  }
}
